=== FILE: README.md ===
# Environmental events backend — a Dafny model

This project models the decision logic of a small REST backend that keeps
"environmental event" records (clean-ups, reforestation days, talks...):
the event schema and its validator, the list operation with its in-memory
filter and page cut, and the create, update, delete and read-by-id
operations. The document store and the image host are abstracted away.

- `event.dfy` (module `Event`): the validated event, its organizer, the
  14 categories and 3 statuses with their wire names, the stored record
  (validated data, image identifier, creation and update times), and the
  contact-channel rule.
- `validator.dfy` (module `Validator`): the raw payload (`Candidate`,
  whose fields may be absent, a string, or some other value), the schema
  as a table of string rules, and `Validate`, which behaves like the schema
  library with its default options: fields are checked in the schema's key
  order, the first failing field is the only error reported, the empty
  string is refused for every string field, `estado` defaults to `activo`,
  and keys the schema does not declare are refused after all declared keys
  pass. Beside it, `Violations` states the same rules field by field with
  every bound written out.
- `validator_facts.dfy` (module `ValidatorFacts`): the validator accepts
  exactly what breaks no rule and reports the first broken rule; `Render`
  writes a validated record back as a payload, and the round trips through
  it pin the validator's output down.
- `listing.dfy` / `listing_facts.dfy` (modules `Listing`, `ListingFacts`):
  the list operation over the collection in the store's newest-first order.
  The query's `categoria` is read once into a filter criterion: the events
  of the category of that name (none when no category has it), or the
  active events. The language's `slice` is modelled exactly, including its
  negative positions.
- `service.dfy` / `service_facts.dfy` (modules `Service`, `ServiceFacts`):
  the write operations and the read as functions from a `State` (store map
  and the set of image identifiers the host holds) to a new state and a
  response. Upload and destroy outcomes, the identifier the store assigns,
  the clock, the e-mail/URI/date syntax checks and the parse of a
  string-encoded organizer are parameters.

Behaviour of the code that the model states:

- Update does not check the contact-channel rule; only create does
  (`ServiceFacts.ContactRuleOnlyOnCreate`).
- An update without `estado` stores `activo`, because the schema's default
  is written like any other field (`ServiceFacts.UpdateResetsEstado`).
- `imagen` and the image identifier are not kept together: a body may
  name an image URL without uploading one (`ServiceFacts.ImagenWithoutMediaId`),
  and an update refused after its upload leaves the record naming a
  destroyed image (`ServiceFacts.UpdateRefusedAfterUpload`).
- `hora` has no length bound, but the schema library still refuses the
  empty string for it, as for every other string field.
- Page 0 is always empty, and a negative page counts back from the end of
  the kept candidates (`ListingFacts.NegativePageCountsFromEnd`).

## Model

| member | source | states |
|---|---|---|
| `Event.ParseCategoria` | model/eventosmodel.js:11-26 | a category string is accepted exactly when it is one of the listed names, and it is read as the category of that name |
| `Event.CategoriaRoundTrip` | model/eventosmodel.js:11-26 | every category's wire name is in the list and reads back as that category |
| `Event.FindIsParse` | model/eventosmodel.js:11-26 | looking a string up by name among the fourteen categories gives exactly what the schema's list of names accepts and reads |
| `Event.CategoriaNamesDistinct` | model/eventosmodel.js:11-26 | the list holds exactly fourteen pairwise distinct names |
| `Event.ParseEstado` | model/eventosmodel.js:40 | a status string is accepted exactly when it is `activo`, `cancelado` or `finalizado` |
| `Event.EstadoRoundTrip` | model/eventosmodel.js:40 | every status's wire name reads back as that status |
| `Validator.CheckString` | model/eventosmodel.js:6-10 | an accepted string field is the input string itself and is never empty; an absent optional field yields no value; a required field is never accepted absent; an error names the field's path |
| `Validator.CheckRequired` | model/eventosmodel.js:6 | an accepted required field is exactly the input string; an error names the field |
| `Validator.CheckDate` | model/eventosmodel.js:8 | `fecha` is accepted exactly when present and readable as a date by the date reader, which sees whether the raw value is a string, a number or another value, and the result is that date |
| `Validator.CheckCategoria` | model/eventosmodel.js:11-26 | `categoria` is accepted exactly when it is a string among the fourteen names; the result is the category of that name |
| `Validator.CheckEstado` | model/eventosmodel.js:40 | `estado` is accepted exactly when absent or one of the three names; absent gives `activo`, present gives the status named |
| `Validator.CheckNoUnknown` | model/eventosmodel.js:4 | an object passes exactly when it has no undeclared key; otherwise the first undeclared key is reported under the object's path |
| `Validator.CheckOrganizerFields` | model/eventosmodel.js:27-36 | an accepted organizer object carries the input's own name and, for each contact key, nothing when absent and the same string when present; it has no undeclared key; every error is reported under `organizador` |
| `Validator.CheckOrganizer` | model/eventosmodel.js:27-36 | a missing or non-object `organizador` is refused at the key itself; an accepted one was an object whose name is the organizer's name; every error lies under `organizador` |
| `Validator.Validate` | model/eventosmodel.js:43-45 | an accepted record is made of the candidate's own values: the same strings, the date read from `fecha`, the category and status named, `activo` when no status was sent, an image only when one was sent; an organizer object and no undeclared key were given; a refusal names a field |
| `ValidatorFacts.OrganizerMatchesViolations` | model/eventosmodel.js:27-36 | the organizer check accepts exactly when no organizer rule is broken and otherwise reports the first broken rule in key order |
| `ValidatorFacts.ValidateMatchesViolations` | model/eventosmodel.js:4-45 | the validator accepts exactly the candidates that break no rule of the schema, and on refusal reports the first broken rule in key order |
| `ValidatorFacts.OrganizerOutput` | model/eventosmodel.js:27-36 | an accepted organizer is the input organizer: absent contact fields stay absent, present ones keep their strings, and all bounds hold |
| `ValidatorFacts.ValidateOutput` | model/eventosmodel.js:4-45 | the accepted record, written back, is the candidate with `estado` defaulted; it satisfies every bound; its date is the one read from `fecha` |
| `ValidatorFacts.ValidateRender` | model/eventosmodel.js:4-45 | every record within the schema's bounds is accepted back unchanged when written out as a payload |
| `ValidatorFacts.AcceptedWithinBounds` | model/eventosmodel.js:6-40 | an accepted record has titulo 3..150, descripcion 10..500, ubicacion 5..200, a listed category, an organizer object with nombre 3..100 and otroContacto at most 200, a listed or absent status, no undeclared keys; anything else is refused |
| `ValidatorFacts.EstadoDefaultsToActivo` | model/eventosmodel.js:40 | without `estado` the accepted record is `activo`; with one, it is the status named |
| `ValidatorFacts.SchemaAcceptsNameOnlyOrganizer` | model/eventosmodel.js:27-36 | the schema accepts an organizer that has only a valid name, and the result has no contact channel |
| `ValidatorFacts.HoraUnbounded` | model/eventosmodel.js:9 | any non-empty `hora`, of any length, keeps an accepted record accepted |
| `ValidatorFacts.ContactIffGiven` | controller/eventosController.js:122-132 | for an accepted payload the contact check passes exactly when some contact field was sent |
| `ValidatorFacts.ValidateIgnoresEstado` | model/eventosmodel.js:40 | swapping one accepted status for another changes neither the refusal nor the rest of the accepted record |
| `Listing.RelativeIndex` | controller/eventosController.js:38 | a `slice` position resolves into `0..len`: a non-negative one is clamped to the length, a negative one counts back from the end and stops at 0 |
| `Listing.Slice` | controller/eventosController.js:37-38 | the page cut holds at most `end - start` elements of the kept list, taken as one contiguous window when the positions are not negative |
| `Listing.Take` | controller/eventosController.js:12-14 | the store returns the first `n` entries of the ordered collection, or all of them when there are fewer |
| `Listing.SelectedByName` | controller/eventosController.js:29-34 | with a non-empty `categoria` an event is kept exactly when its category's name equals it, whatever its status; otherwise exactly when it is active |
| `Listing.Filter` | controller/eventosController.js:29-34 | the in-memory filter keeps at most the fetched documents; which ones it keeps is `Listing.FilterMembers` |
| `Listing.FilterMembers` | controller/eventosController.js:29-34 | the kept documents are exactly the fetched documents the query selects |
| `Listing.PageStart` | controller/eventosController.js:37 | a page from 1 on starts at a position that is not negative; a page below 1 ends at or before position 0, and strictly before it when the page is negative and the limit positive |
| `Listing.List` | controller/eventosController.js:7-49 | page and limit default to 1 and 10; the total is the kept count before the cut and at most `5*limit`; a limit of 0 is accepted and read as a store query that returns nothing (see "Left out"); the page has at most `limit` entries, all among the kept (fetched and selected) candidates; for page >= 1 it is the window `(page-1)*limit ..` of the kept list |
| `ListingFacts.FilterConcat` | controller/eventosController.js:29-34 | filtering two sequences laid end to end gives the two filtered sequences, in order |
| `ListingFacts.FilterSplit` | controller/eventosController.js:29-34 | filtering a sequence cut anywhere gives the filtered parts, in order |
| `ListingFacts.FilterKeepsOrder` | controller/eventosController.js:29-34 | filtering a newest-first sequence leaves it newest-first |
| `ListingFacts.ListSelects` | controller/eventosController.js:29-34 | without a category every listed event is active; with one, every listed event has that category whatever its status |
| `ListingFacts.ListKeepsCreationOrder` | controller/eventosController.js:12-38 | a page of a newest-first collection is newest-first |
| `ListingFacts.PageTwoOfFive` | controller/eventosController.js:36-38 | page 2 of size 5 is entries 5..10 of the kept list when at least ten were kept |
| `ListingFacts.ZeroLimitListsNothing` | controller/eventosController.js:12-47 | with `limit` 0, read as a store query that returns nothing (an assumption about the store client, see "Left out"), the page is empty and the total is 0, whatever the page asked for |
| `ListingFacts.PageZeroIsEmpty` | controller/eventosController.js:36-38 | page 0 is always empty |
| `ListingFacts.NegativePageCountsFromEnd` | controller/eventosController.js:36-38 | a negative page whose window starts inside the kept list returns that window counted back from the end of the kept list; a window that would start before the first kept entry is not covered by this lemma (`slice` then resolves that start to position 0, as the third clause of `Listing.RelativeIndex` states, so the window is cut short) |
| `ListingFacts.TotalUndercounts` | controller/eventosController.js:12-47 | the total never exceeds the selected events of the whole collection, the kept list is their newest prefix, and the two agree when the collection fits in the over-fetch |
| `ListingFacts.PagesTile` | controller/eventosController.js:36-38 | pages 1..n laid end to end are the first `n*limit` kept documents: nothing is skipped or repeated |
| `ListingFacts.EmptyCategoriaIsDefault` | controller/eventosController.js:30-34 | an empty category lists the same as no category |
| `ListingFacts.UnknownCategoriaListsNothing` | controller/eventosController.js:30-31 | a category outside the fourteen lists nothing, with total 0 |
| `Service.ParseOrganizer` | controller/eventosController.js:69-76 | a string organizer is replaced by what it parses to; when it does not parse, or is not a string, the payload is unchanged; nothing else changes |
| `Service.AfterDestroy` | controller/eventosController.js:303-311 | a destroy that fails, or is not attempted, leaves the media set as it was; a successful one removes exactly that identifier |
| `ServiceFacts.EncodedOrganizerActsAsSent` | controller/eventosController.js:69-76 | a string organizer that parses is handled by create and update exactly as the parsed value sent directly |
| `ServiceFacts.UnreadableOrganizerRefused` | controller/eventosController.js:69-76 | a string organizer that does not parse is left for the schema, which refuses it: neither create nor update writes anything |
| `Service.StatusCode` | controller/eventosController.js:110-239 | refusals by the schema or the contact rule are sent as 400, a missing id as 404, a failed upload on update as 500, and every success with a 2xx status |
| `Service.Payload` | controller/eventosController.js:66-106 | the validated payload carries the uploaded URL as `imagen` only after a successful upload and never the image identifier; otherwise it is the body with its organizer parsed, and that parsed organizer is what the schema sees |
| `Service.Create` | controller/eventosController.js:61-173 | refusal by the schema, then by the contact rule, writes nothing, and a schema refusal reports the validator's own error (its first broken rule); otherwise the record is stored under the new id with `estado = activo`, a contact channel, the uploaded identifier or none, and both times equal to now; a successful upload is kept with the host in every case |
| `Service.Merge` | controller/eventosController.js:260-270 | the written record takes every validated field, keeps the stored image when the payload has none, keeps the stored image identifier unless a new one was uploaded, keeps the creation time and sets the update time |
| `Service.Update` | controller/eventosController.js:174-284 | a missing id changes nothing; with an attachment the old image is destroyed first; a failed upload or a refused payload writes nothing, and a refused payload reports the validator's own error; a present id with no failed upload and an accepted payload is always written, as the merge of the stored record and the payload, and nothing else in the store changes |
| `Service.Delete` | controller/eventosController.js:287-328 | a missing id changes nothing; otherwise the document is removed whatever the destroy outcome, and a destroy is attempted only when the record has an image identifier |
| `Service.Get` | controller/eventosController.js:331-361 | returns the stored record exactly when the id is present, and not-found otherwise |
| `ServiceFacts.CreateStoresPayload` | controller/eventosController.js:144-151 | the created record, written back, is the validated payload with `estado` replaced by `activo` |
| `ServiceFacts.CreateIgnoresEstado` | controller/eventosController.js:145-151 | two create requests that differ only in an accepted `estado` have the same outcome |
| `ServiceFacts.CreateDegradesFailedUpload` | controller/eventosController.js:102-105 | create with a failed upload behaves exactly like create without an attachment |
| `ServiceFacts.CreateRequiresContact` | controller/eventosController.js:122-137 | a payload that names no contact channel is refused by create and nothing is written |
| `ServiceFacts.ContactRuleOnlyOnCreate` | controller/eventosController.js:242-270 | a body whose organizer has only a name is refused by create but accepted by update, which stores it without any contact channel |
| `ServiceFacts.UpdateStoresPayload` | controller/eventosController.js:260-270 | the updated record, written back, is the validated payload, except that a payload without `imagen` keeps the stored image |
| `ServiceFacts.UpdateResetsEstado` | controller/eventosController.js:243-270 | an update without `estado` stores `activo`, whatever the event's previous status |
| `ServiceFacts.UpdateFailedUploadKeepsRecord` | controller/eventosController.js:204-239 | a failed upload during update writes nothing, although the old image may already be gone from the host |
| `ServiceFacts.UpdateRefusedAfterUpload` | controller/eventosController.js:204-253 | a payload refused after a successful upload leaves the record naming the destroyed image while the new image stays with the host |
| `ServiceFacts.ImagenWithoutMediaId` | controller/eventosController.js:145-151 | a body naming an image URL without an attachment is stored with that URL and no image identifier |
| `ServiceFacts.CreateThenGet` | controller/eventosController.js:153-164 | a created event is read back as created |
| `ServiceFacts.DeleteThenGet` | controller/eventosController.js:313-314 | after a delete the id reads as not found, whatever the destroy outcome |
| `ServiceFacts.CreatePreservesConsistency` | controller/eventosController.js:144-153 | create keeps every stored record within the schema's bounds with its update time not before its creation time |
| `ServiceFacts.UpdatePreservesConsistency` | controller/eventosController.js:260-270 | update keeps every stored record within the schema's bounds with its update time not before its creation time, given a clock not behind any creation time |
| `ServiceFacts.DeletePreservesConsistency` | controller/eventosController.js:313-314 | delete keeps every stored record within the schema's bounds |

## Left out

- The document store and image host calls themselves: the store is a map, the host a set of identifiers, and each upload or destroy outcome is a parameter.
- Service.Create: both timestamps are one clock reading `now`; the code reads the clock twice, so the two may differ by a millisecond.
- Service.Create: the identifier the store assigns is a parameter assumed not in use; image-identifier collisions at the host (names are built from the clock) are not modelled.
- Conversion of timestamps to ISO-8601 strings on read, and the conversion of `fecha` after validation (dead code, since the schema already returns a date): times are kept as `Instant`.
- The schema library's e-mail, URI and date syntax, and the parse of a string-encoded organizer: parameters that may decide anything. The date reader is handed the raw `fecha`, so it can accept a JSON number (read as milliseconds since the epoch) and refuse a boolean, null or object, as the library does.
- Validator.Field: a JSON number in a non-string field is held as an integer; a fractional number is not modelled.
- Listing.List: a `categoria` sent more than once (or in bracket syntax) reaches the code as an array, which the query type cannot hold. The code then keeps nothing, since the array is truthy and equals no event's category, so it lists an empty page with total 0, the outcome `ListingFacts.UnknownCategoriaListsNothing` states for an unknown name.
- The schema library's own attempt to read a string as an object: a string the controller could not parse fails it too, so only a doubly encoded organizer would differ.
- String lengths count characters; the schema library counts UTF-16 code units, which differs for characters outside the Basic Multilingual Plane.
- Error messages, logging and response bodies beyond the error itself: a refusal carries the validator's error, that is the failing field's path and the rule it broke (`Service.Create`, `Service.Update`), not its message text.
- Unexpected store failures (500 responses) and the race between two concurrent updates or deletes; the code has no concurrency control to verify.
- ListingFacts.ZeroLimitListsNothing: assumes the store client answers a query limit of 0 (`parseInt(limit) * 5` with `limit` 0) with no documents. The client is not part of this model, and it may instead leave a limit of 0 out of the query and return the whole collection; the page would still be empty (`slice(0, 0)`), but the total would then count every selected event.
- Listing.List: for a `limit` of 0 the bound `total <= 5 * limit` and the total of 0 rest on the same assumption about the store client.
- Listing.List: a negative `limit`, and a `limit` or `page` that is not an integer, are not modelled: what the store query does with a negative or non-numeric limit is outside the model.
- HTTP routing, the upload middleware's size and type limits, CORS and static files, credentials and client setup.

## Findings

No defect claimed: every surprising behaviour above is a consequence of the
code as written that its authors may have intended, and is stated as a
property rather than corrected.

=== FILE: event.dfy ===
/**
 The records of the environmental-event backend: the validated event, its
 organizer, the two enumerations of the schema, and the shape in which the
 document store keeps an event (the validated record plus the media host's
 identifier and the two store-side timestamps).
 */
module Event {

  datatype Option<+T> = None | Some(value: T) {
    function GetOr(default: T): T {
      match this
      case Some(v) => v
      case None => default
    }
  }

  /** A point in time as the store keeps it (milliseconds since the epoch). */
  datatype Instant = Instant(millis: int)

  /** The media host's identifier of an uploaded image. The host always
      answers an upload with a non-empty identifier, so "set" and "truthy"
      coincide for it. */
  type MediaId = s: string | |s| > 0 witness "m"

  /** The document store's identifier of an event. */
  type Id = string

  /** The fourteen values the schema admits for `categoria`. */
  datatype Categoria =
    | RecoleccionBasura
    | Reciclaje
    | Reforestacion
    | ConservacionFauna
    | EducacionAmbiental
    | EnergiaRenovable
    | AguaSaneamiento
    | AgriculturaSostenible
    | CambioClimatico
    | Biodiversidad
    | Contaminacion
    | EconomiaCircular
    | TransporteSostenible
    | Otro

  /** The three values the schema admits for `estado`. */
  datatype Estado = Activo | Cancelado | Finalizado

  /** The wire names of the categories, in the order the schema lists them. */
  const CategoriaNames: seq<string> := [
    "recoleccion-basura", "reciclaje", "reforestacion", "conservacion-fauna",
    "educacion-ambiental", "energia-renovable", "agua-saneamiento",
    "agricultura-sostenible", "cambio-climatico", "biodiversidad",
    "contaminacion", "economia-circular", "transporte-sostenible", "otro"
  ]

  const EstadoNames: seq<string> := ["activo", "cancelado", "finalizado"]

  function CategoriaName(c: Categoria): string {
    match c
    case RecoleccionBasura => "recoleccion-basura"
    case Reciclaje => "reciclaje"
    case Reforestacion => "reforestacion"
    case ConservacionFauna => "conservacion-fauna"
    case EducacionAmbiental => "educacion-ambiental"
    case EnergiaRenovable => "energia-renovable"
    case AguaSaneamiento => "agua-saneamiento"
    case AgriculturaSostenible => "agricultura-sostenible"
    case CambioClimatico => "cambio-climatico"
    case Biodiversidad => "biodiversidad"
    case Contaminacion => "contaminacion"
    case EconomiaCircular => "economia-circular"
    case TransporteSostenible => "transporte-sostenible"
    case Otro => "otro"
  }

  function EstadoName(e: Estado): string {
    match e
    case Activo => "activo"
    case Cancelado => "cancelado"
    case Finalizado => "finalizado"
  }

  /** Reads a wire string as a category; any string outside the list is refused. */
  function ParseCategoria(s: string): (r: Option<Categoria>)
    ensures r.Some? <==> s in CategoriaNames
    ensures r.Some? ==> CategoriaName(r.value) == s
  {
    if s == "recoleccion-basura" then Some(RecoleccionBasura)
    else if s == "reciclaje" then Some(Reciclaje)
    else if s == "reforestacion" then Some(Reforestacion)
    else if s == "conservacion-fauna" then Some(ConservacionFauna)
    else if s == "educacion-ambiental" then Some(EducacionAmbiental)
    else if s == "energia-renovable" then Some(EnergiaRenovable)
    else if s == "agua-saneamiento" then Some(AguaSaneamiento)
    else if s == "agricultura-sostenible" then Some(AgriculturaSostenible)
    else if s == "cambio-climatico" then Some(CambioClimatico)
    else if s == "biodiversidad" then Some(Biodiversidad)
    else if s == "contaminacion" then Some(Contaminacion)
    else if s == "economia-circular" then Some(EconomiaCircular)
    else if s == "transporte-sostenible" then Some(TransporteSostenible)
    else if s == "otro" then Some(Otro)
    else None
  }

  /** Reads a wire string as a status; any string outside the three is refused. */
  function ParseEstado(s: string): (r: Option<Estado>)
    ensures r.Some? <==> s in EstadoNames
    ensures r.Some? ==> EstadoName(r.value) == s
  {
    if s == "activo" then Some(Activo)
    else if s == "cancelado" then Some(Cancelado)
    else if s == "finalizado" then Some(Finalizado)
    else None
  }

  /** Naming a category and reading the name back gives the category, so
      the fourteen names are pairwise distinct and all in the list. */
  lemma CategoriaRoundTrip(c: Categoria)
    ensures CategoriaName(c) in CategoriaNames
    ensures ParseCategoria(CategoriaName(c)) == Some(c)
  {
  }

  /** The fourteen categories, in the order the schema lists them. */
  const AllCategorias: seq<Categoria> := [
    RecoleccionBasura, Reciclaje, Reforestacion, ConservacionFauna, EducacionAmbiental, EnergiaRenovable,
    AguaSaneamiento, AgriculturaSostenible, CambioClimatico, Biodiversidad, Contaminacion, EconomiaCircular,
    TransporteSostenible, Otro
  ]

  /** The first category of `cats` whose wire name is `s`: the lookup an
      equality test against each stored category name amounts to. */
  function FindCategoria(s: string, cats: seq<Categoria>): Option<Categoria> {
    if cats == [] then None
    else if CategoriaName(cats[0]) == s then Some(cats[0])
    else FindCategoria(s, cats[1..])
  }

  /** Searching the fourteen by name reads a string exactly as the schema's
      parser does. */
  lemma FindIsParse(s: string)
    ensures FindCategoria(s, AllCategorias) == ParseCategoria(s)
  {
    var r := FindCategoria(s, AllCategorias);
    FindSound(s, AllCategorias);
    if r.Some? {
      CategoriaRoundTrip(r.value);
    }
    var p := ParseCategoria(s);
    if p.Some? {
      AllCategoriasComplete(p.value);
      FindComplete(s, AllCategorias, p.value);
      CategoriaRoundTrip(r.value);
    }
  }

  /** A category the search finds is in the searched list and has that name. */
  lemma {:induction false} FindSound(s: string, cats: seq<Categoria>)
    ensures var r := FindCategoria(s, cats);
            r.Some? ==> r.value in cats && CategoriaName(r.value) == s
  {
    if cats != [] && CategoriaName(cats[0]) != s {
      FindSound(s, cats[1..]);
    }
  }

  /** The search finds something whenever a category of the list has that name. */
  lemma {:induction false} FindComplete(s: string, cats: seq<Categoria>, c: Categoria)
    requires c in cats && CategoriaName(c) == s
    ensures FindCategoria(s, cats).Some?
  {
    if CategoriaName(cats[0]) != s {
      assert c in cats[1..];
      FindComplete(s, cats[1..], c);
    }
  }

  lemma AllCategoriasComplete(c: Categoria)
    ensures c in AllCategorias
  {
  }

  /** The list holds exactly fourteen pairwise distinct names. */
  lemma CategoriaNamesDistinct()
    ensures |CategoriaNames| == 14
    ensures forall i, j :: 0 <= i < j < |CategoriaNames| ==> CategoriaNames[i] != CategoriaNames[j]
  {
  }

  lemma EstadoRoundTrip(e: Estado)
    ensures ParseEstado(EstadoName(e)) == Some(e)
  {
  }

  /** The organizer sub-record after validation: a name and up to seven
      optional contact channels. */
  datatype Organizer = Organizer(
    nombre: string,
    email: Option<string>,
    telefono: Option<string>,
    whatsapp: Option<string>,
    facebook: Option<string>,
    instagram: Option<string>,
    sitioWeb: Option<string>,
    otroContacto: Option<string>)

  /** The validated event record, as the schema returns it. */
  datatype EventData = EventData(
    titulo: string,
    descripcion: string,
    fecha: Instant,
    hora: string,
    ubicacion: string,
    categoria: Categoria,
    organizador: Organizer,
    imagen: Option<string>,
    estado: Estado)

  /** An event as the document store keeps it. */
  datatype StoredEvent = StoredEvent(
    data: EventData,
    publicId: Option<MediaId>,
    fechaCreacion: Instant,
    fechaActualizacion: Instant)

  /** JavaScript truthiness of an optional string: present and not empty. */
  predicate Truthy(x: Option<string>) {
    x.Some? && x.value != ""
  }

  /** The controller's contact-channel rule: at least one of the seven
      contact fields is truthy. */
  predicate HasContact(o: Organizer) {
    || Truthy(o.email)
    || Truthy(o.telefono)
    || Truthy(o.whatsapp)
    || Truthy(o.facebook)
    || Truthy(o.instagram)
    || Truthy(o.sitioWeb)
    || Truthy(o.otroContacto)
  }
}

=== FILE: listing.dfy ===
/**
 The list operation. The store returns the collection newest-first
 (ordered by creation time, descending); the operation over-fetches
 `5 * limit` of those, keeps the ones the query selects (the category if
 one is given, otherwise the active ones), and cuts a page out of the kept
 ones with the language's `slice`, whose negative positions count from the
 end. The reported total is the number kept before the page is cut.
 */
module Listing {
  import opened Event

  /** A fetched document: the store's identifier and the stored event. */
  datatype Doc = Doc(id: Id, event: StoredEvent)

  /** The query string: `categoria`, `page` and `limit`, each optional. */
  datatype Query = Query(categoria: Option<string>, page: Option<int>, limit: Option<int>)

  /** The page and the pagination block of the response. */
  datatype Listed = Listed(items: seq<Doc>, page: int, limit: int, total: nat)

  const DefaultPage := 1
  const DefaultLimit := 10

  /** How many candidates are fetched per requested item. */
  const OverFetch := 5

  function Min(a: int, b: int): int {
    if a <= b then a else b
  }

  /** A position given to `slice`, resolved against a length: a negative
      position counts back from the end, and the result is clamped into
      `0..len`. */
  function RelativeIndex(i: int, len: nat): (r: nat)
    ensures r <= len
    ensures 0 <= i ==> r == Min(i, len)
    ensures i < 0 && -i <= len ==> r == len + i
    ensures i < 0 && -i > len ==> r == 0
  {
    if i < 0 then (if len + i < 0 then 0 else len + i)
    else if i < len then i
    else len
  }

  /** The language's `slice(start, end)` on a sequence. */
  function Slice<T>(s: seq<T>, start: int, end: int): (r: seq<T>)
    ensures start <= end ==> |r| <= end - start
    ensures 0 <= end <= start ==> r == []
    ensures 0 <= start <= end ==> r == s[Min(start, |s|)..Min(end, |s|)]
    ensures forall k :: 0 <= k < |r| ==> r[k] in s
  {
    var from := RelativeIndex(start, |s|);
    var to := RelativeIndex(end, |s|);
    if from < to then s[from..to] else []
  }

  /** The first `n` elements, or all of them when there are fewer: what a
      store query with a limit of `n` returns. */
  function Take<T>(s: seq<T>, n: nat): (r: seq<T>)
    ensures |r| <= n && |r| <= |s|
    ensures r == s[..|r|]
    ensures |r| == Min(n, |s|)
  {
    if n < |s| then s[..n] else s
  }

  /** What the in-memory filter keeps: the events of one category, or the
      active events. The category is held as read from the query, so a name
      outside the fourteen is `OfCategoria(None)`, which no event has. */
  datatype Criterion = ActiveOnly | OfCategoria(categoria: Option<Categoria>)

  /** The criterion of a query's `categoria`: a non-empty category selects
      by category whatever the status (the name is looked up among the
      fourteen), otherwise only active events are kept. */
  function CriterionOf(categoria: Option<string>): Criterion {
    if categoria.Some? && categoria.value != "" then OfCategoria(FindCategoria(categoria.value, AllCategorias))
    else ActiveOnly
  }

  /** Whether a document is kept. */
  predicate Selected(crit: Criterion, d: Doc) {
    match crit
    case ActiveOnly => d.event.data.estado == Activo
    case OfCategoria(c) => c == Some(d.event.data.categoria)
  }

  /** The criterion of a query keeps exactly the documents whose category
      name equals a non-empty `categoria`, and otherwise exactly the active
      ones. */
  lemma SelectedByName(categoria: Option<string>, d: Doc)
    ensures Selected(CriterionOf(categoria), d)
            <==> if categoria.Some? && categoria.value != ""
                 then CategoriaName(d.event.data.categoria) == categoria.value
                 else d.event.data.estado == Activo
  {
    CategoriaRoundTrip(d.event.data.categoria);
    if categoria.Some? {
      FindIsParse(categoria.value);
    }
  }

  /** The in-memory filter, keeping the fetched order. */
  function Filter(crit: Criterion, docs: seq<Doc>): (r: seq<Doc>)
    ensures |r| <= |docs|
  {
    if docs == [] then []
    else (if Selected(crit, docs[0]) then [docs[0]] else []) + Filter(crit, docs[1..])
  }

  /** The filter keeps exactly the documents the criterion selects. */
  lemma {:induction false} FilterMembers(crit: Criterion, docs: seq<Doc>)
    ensures forall d :: d in Filter(crit, docs) <==> d in docs && Selected(crit, d)
  {
    if docs != [] {
      FilterMembers(crit, docs[1..]);
      assert docs == [docs[0]] + docs[1..];
    }
  }

  /** The selected, over-fetched candidates the page is cut from. */
  function Kept(all: seq<Doc>, q: Query, limit: nat): seq<Doc> {
    Filter(CriterionOf(q.categoria), Take(all, OverFetch * limit))
  }

  /** Lists events. `all` is the whole collection in the store's order
      (creation time, descending); the store hands over its first
      `5 * limit` entries. A limit of 0 is read as a store query that
      returns nothing, an assumption about the store client; a negative or
      non-integer limit is left out. */
  function List(all: seq<Doc>, q: Query): (r: Listed)
    requires q.limit.Some? ==> q.limit.value >= 0
    ensures r.page == q.page.GetOr(DefaultPage) && r.limit == q.limit.GetOr(DefaultLimit)
    ensures r.limit >= 0
    ensures r.total == |Kept(all, q, r.limit)| <= OverFetch * r.limit
    ensures |r.items| <= r.limit
    ensures forall d :: d in r.items ==>
              d in Kept(all, q, r.limit) && d in all && Selected(CriterionOf(q.categoria), d)
    ensures r.page >= 1 ==>
              var kept := Kept(all, q, r.limit);
              var offset := PageStart(r.page, r.limit);
              r.items == if offset <= |kept| then kept[offset..Min(offset + r.limit, |kept|)] else []
  {
    var limit := q.limit.GetOr(DefaultLimit);
    var page := q.page.GetOr(DefaultPage);
    var kept := Kept(all, q, limit);
    var offset := PageStart(page, limit);
    var items := Slice(kept, offset, offset + limit);
    KeptSound(all, q, limit);
    WindowFrom(kept, offset, limit);
    Listed(items, page, limit, |kept|)
  }

  /** Where page `page` of size `limit` starts: `(page - 1) * limit`. A
      page from 1 on starts at a position that is not negative; a page
      below 1 ends at or before position 0, and a negative page of a
      positive size ends before it. */
  function PageStart(page: int, limit: nat): (o: int)
    ensures page >= 1 ==> o >= 0
    ensures page <= 0 ==> o + limit <= 0
    ensures page < 0 && limit > 0 ==> o + limit < 0
  {
    (page - 1) * limit
  }

  /** Every kept candidate was fetched from the collection and is selected. */
  lemma KeptSound(all: seq<Doc>, q: Query, limit: nat)
    ensures forall d :: d in Kept(all, q, limit) ==> d in all && Selected(CriterionOf(q.categoria), d)
  {
    var fetched := Take(all, OverFetch * limit);
    FilterMembers(CriterionOf(q.categoria), fetched);
    assert forall d :: d in fetched ==> d in all;
  }

  /** A window that starts at a non-negative position. */
  lemma WindowFrom<T>(s: seq<T>, offset: int, limit: int)
    ensures 0 <= offset && 0 <= limit ==>
              Slice(s, offset, offset + limit)
              == if offset <= |s| then s[offset..Min(offset + limit, |s|)] else []
  {
  }
}

=== FILE: listing_facts.dfy ===
/**
 Properties of the list operation: which events a page may hold, that a
 page keeps the store's newest-first order, that consecutive pages tile
 the kept candidates, that the total undercounts when the over-fetch falls
 short, and what the language's `slice` makes of a page number below one.
 */
module ListingFacts {
  import opened Event
  import opened Listing

  /** The creation time of the `i`-th document. */
  function CreatedAt(s: seq<Doc>, i: nat): int
    requires i < |s|
  {
    s[i].event.fechaCreacion.millis
  }

  /** Newest first: creation times never increase along the sequence. */
  predicate NewestFirst(s: seq<Doc>) {
    forall i, j :: 0 <= i < j < |s| ==> CreatedAt(s, j) <= CreatedAt(s, i)
  }

  /** The list operation, step by step. */
  lemma ListSteps(all: seq<Doc>, q: Query)
    requires q.limit.Some? ==> q.limit.value >= 0
    ensures var limit := q.limit.GetOr(DefaultLimit);
            var page := q.page.GetOr(DefaultPage);
            var offset := PageStart(page, limit);
            List(all, q) == Listed(Slice(Kept(all, q, limit), offset, offset + limit), page, limit,
                                   |Kept(all, q, limit)|)
  {
  }

  /** Filtering a newest-first sequence leaves it newest-first. */
  lemma {:induction false} FilterKeepsOrder(crit: Criterion, docs: seq<Doc>)
    requires NewestFirst(docs)
    ensures NewestFirst(Filter(crit, docs))
  {
    if docs != [] {
      var rest := Filter(crit, docs[1..]);
      TailKeepsOrder(docs);
      FilterKeepsOrder(crit, docs[1..]);
      if Selected(crit, docs[0]) {
        FilterNoLater(crit, docs[1..], CreatedAt(docs, 0));
        ConsKeepsOrder(docs[0], rest);
        assert Filter(crit, docs) == [docs[0]] + rest;
      } else {
        assert Filter(crit, docs) == rest;
      }
    }
  }

  /** No document of the sequence was created after `t`. */
  predicate NoLaterThan(s: seq<Doc>, t: int) {
    forall i :: 0 <= i < |s| ==> CreatedAt(s, i) <= t
  }

  /** Filtering keeps a bound on the creation times. */
  lemma {:induction false} FilterNoLater(crit: Criterion, docs: seq<Doc>, t: int)
    requires NoLaterThan(docs, t)
    ensures NoLaterThan(Filter(crit, docs), t)
  {
    if docs != [] {
      var rest := Filter(crit, docs[1..]);
      TailNoLater(docs, t);
      FilterNoLater(crit, docs[1..], t);
      if Selected(crit, docs[0]) {
        assert CreatedAt(docs, 0) <= t;
        ConsNoLater(docs[0], rest, t);
        assert Filter(crit, docs) == [docs[0]] + rest;
      } else {
        assert Filter(crit, docs) == rest;
      }
    }
  }

  /** The tail of a newest-first sequence is newest-first, and created no
      later than its head. */
  lemma TailKeepsOrder(docs: seq<Doc>)
    requires docs != [] && NewestFirst(docs)
    ensures NewestFirst(docs[1..]) && NoLaterThan(docs[1..], CreatedAt(docs, 0))
  {
    forall i, j | 0 <= i < j < |docs[1..]|
      ensures CreatedAt(docs[1..], j) <= CreatedAt(docs[1..], i)
    {
      assert CreatedAt(docs, j + 1) <= CreatedAt(docs, i + 1);
    }
    forall i | 0 <= i < |docs[1..]|
      ensures CreatedAt(docs[1..], i) <= CreatedAt(docs, 0)
    {
      assert CreatedAt(docs, i + 1) <= CreatedAt(docs, 0);
    }
  }

  /** A bound on the creation times holds for the tail too. */
  lemma TailNoLater(docs: seq<Doc>, t: int)
    requires docs != [] && NoLaterThan(docs, t)
    ensures NoLaterThan(docs[1..], t)
  {
    forall i | 0 <= i < |docs[1..]|
      ensures CreatedAt(docs[1..], i) <= t
    {
      assert CreatedAt(docs, i + 1) <= t;
    }
  }

  /** A document put in front of a newest-first sequence created no later
      than it gives a newest-first sequence. */
  lemma ConsKeepsOrder(d: Doc, rest: seq<Doc>)
    requires NewestFirst(rest) && NoLaterThan(rest, d.event.fechaCreacion.millis)
    ensures NewestFirst([d] + rest)
  {
    var r := [d] + rest;
    forall i, j | 0 <= i < j < |r|
      ensures CreatedAt(r, j) <= CreatedAt(r, i)
    {
      assert CreatedAt(r, j) == CreatedAt(rest, j - 1);
      if i > 0 {
        assert CreatedAt(rest, j - 1) <= CreatedAt(rest, i - 1);
      }
    }
  }

  /** A document created no later than the bound keeps it in front of a
      sequence that keeps it. */
  lemma ConsNoLater(d: Doc, rest: seq<Doc>, t: int)
    requires d.event.fechaCreacion.millis <= t && NoLaterThan(rest, t)
    ensures NoLaterThan([d] + rest, t)
  {
    var r := [d] + rest;
    forall i | 0 <= i < |r|
      ensures CreatedAt(r, i) <= t
    {
      if i > 0 {
        assert CreatedAt(r, i) == CreatedAt(rest, i - 1);
      }
    }
  }

  /** With no category (or an empty one) every listed event is active; with
      a category, every listed event has that category, whatever its status. */
  lemma ListSelects(all: seq<Doc>, q: Query)
    requires q.limit.Some? ==> q.limit.value >= 0
    ensures q.categoria.None? || q.categoria == Some("") ==>
              forall k :: 0 <= k < |List(all, q).items| ==> List(all, q).items[k].event.data.estado == Activo
    ensures q.categoria.Some? && q.categoria.value != "" ==>
              forall k :: 0 <= k < |List(all, q).items| ==>
                CategoriaName(List(all, q).items[k].event.data.categoria) == q.categoria.value
  {
    var r := List(all, q);
    forall k | 0 <= k < |r.items|
      ensures Selected(CriterionOf(q.categoria), r.items[k])
    {
      assert r.items[k] in r.items;
    }
    forall k | 0 <= k < |r.items| {
      SelectedByName(q.categoria, r.items[k]);
    }
  }

  /** A page of a newest-first collection is newest-first. */
  lemma ListKeepsCreationOrder(all: seq<Doc>, q: Query)
    requires q.limit.Some? ==> q.limit.value >= 0
    requires NewestFirst(all)
    ensures NewestFirst(List(all, q).items)
  {
    var offset := ListWindow(all, q);
    PageKeepsOrder(all, q, q.limit.GetOr(DefaultLimit), offset, List(all, q).items);
  }

  /** The listed page is some window of the kept candidates. This is
      `ListSteps` with the window's start handed back as a plain number:
      a caller that only needs "some window" then never sees the
      multiplication inside `PageStart`, which keeps its proof small. */
  lemma ListWindow(all: seq<Doc>, q: Query) returns (offset: int)
    requires q.limit.Some? ==> q.limit.value >= 0
    ensures var limit := q.limit.GetOr(DefaultLimit);
            List(all, q).items == Slice(Kept(all, q, limit), offset, offset + limit)
  {
    offset := PageStart(q.page.GetOr(DefaultPage), q.limit.GetOr(DefaultLimit));
    ListSteps(all, q);
  }

  /** Any window of the kept candidates of a newest-first collection is
      newest-first. */
  lemma PageKeepsOrder(all: seq<Doc>, q: Query, limit: nat, offset: int, page: seq<Doc>)
    requires NewestFirst(all)
    requires page == Slice(Kept(all, q, limit), offset, offset + limit)
    ensures NewestFirst(page)
  {
    KeptKeepsOrder(all, q, limit);
    SliceKeepsOrder(Kept(all, q, limit), offset, offset + limit);
  }

  /** The kept candidates of a newest-first collection are newest-first. */
  lemma KeptKeepsOrder(all: seq<Doc>, q: Query, limit: nat)
    requires NewestFirst(all)
    ensures NewestFirst(Kept(all, q, limit))
  {
    TakeKeepsOrder(all, OverFetch * limit);
    FilterKeepsOrder(CriterionOf(q.categoria), Take(all, OverFetch * limit));
  }

  /** A prefix of a newest-first sequence is newest-first. */
  lemma TakeKeepsOrder(s: seq<Doc>, n: nat)
    requires NewestFirst(s)
    ensures NewestFirst(Take(s, n))
  {
    var r := Take(s, n);
    assert r == s[..|r|];
    forall i, j | 0 <= i < j < |r|
      ensures CreatedAt(r, j) <= CreatedAt(r, i)
    {
      assert r[i] == s[i] && r[j] == s[j];
      assert CreatedAt(s, j) <= CreatedAt(s, i);
    }
  }

  /** Any `slice` of a newest-first sequence is newest-first. */
  lemma SliceKeepsOrder(s: seq<Doc>, start: int, end: int)
    requires NewestFirst(s)
    ensures NewestFirst(Slice(s, start, end))
  {
    var from := RelativeIndex(start, |s|);
    var to := RelativeIndex(end, |s|);
    if from < to {
      var r := s[from..to];
      assert Slice(s, start, end) == r;
      forall i, j | 0 <= i < j < |r|
        ensures CreatedAt(r, j) <= CreatedAt(r, i)
      {
        assert r[i] == s[from + i] && r[j] == s[from + j];
        assert CreatedAt(s, from + j) <= CreatedAt(s, from + i);
      }
    }
  }

  /** Page 2 of size 5 is entries 5..10 of the kept
      candidates whenever at least ten were kept. */
  lemma PageTwoOfFive(all: seq<Doc>, categoria: Option<string>)
    requires |Kept(all, Query(categoria, Some(2), Some(5)), 5)| >= 10
    ensures List(all, Query(categoria, Some(2), Some(5))).items
            == Kept(all, Query(categoria, Some(2), Some(5)), 5)[5..10]
  {
  }

  /** With a store that answers a query limit of 0 with nothing, a limit
      of 0 fetches nothing: the page is empty and the total is 0, whatever
      page was asked for. */
  lemma ZeroLimitListsNothing(all: seq<Doc>, q: Query)
    requires q.limit == Some(0)
    ensures List(all, q).items == [] && List(all, q).total == 0
  {
    assert Take(all, OverFetch * 0) == [];
  }

  /** Page 0 is always empty: its window ends at position 0. */
  lemma PageZeroIsEmpty(all: seq<Doc>, q: Query)
    requires q.limit.Some? ==> q.limit.value >= 0
    requires q.page == Some(0)
    ensures List(all, q).items == []
  {
  }

  /** A negative page is not refused: the window starting at
      `PageStart(page, limit)`, that is `(page-1)*limit`, is taken relative
      to the end of the kept candidates, so page -1 returns the
      second-to-last `limit` of them. */
  lemma NegativePageCountsFromEnd(all: seq<Doc>, q: Query)
    requires q.limit.Some? && q.limit.value >= 0
    requires q.page.Some? && q.page.value < 0
    requires |Kept(all, q, q.limit.value)| + PageStart(q.page.value, q.limit.value) >= 0
    ensures var kept := Kept(all, q, q.limit.value);
            var start := |kept| + PageStart(q.page.value, q.limit.value);
            List(all, q).items == kept[start .. start + q.limit.value]
  {
    ListSteps(all, q);
    NegativeWindow(Kept(all, q, q.limit.value), q.page.value, q.limit.value);
  }

  /** For a negative page both ends of the window count back from the end
      of the sequence. */
  lemma NegativeWindow<T>(s: seq<T>, page: int, limit: nat)
    requires page < 0
    requires |s| + PageStart(page, limit) >= 0
    ensures var offset := PageStart(page, limit);
            Slice(s, offset, offset + limit) == s[|s| + offset .. |s| + offset + limit]
  {
    if limit == 0 {
      assert Slice(s, PageStart(page, 0), PageStart(page, 0)) == [];
    }
  }

  /** Filtering a prefix gives a prefix of the filtered whole. */
  lemma FilterPrefix(crit: Criterion, docs: seq<Doc>, n: nat)
    requires n <= |docs|
    ensures Filter(crit, docs[..n]) <= Filter(crit, docs)
  {
    FilterSplit(crit, docs, n);
  }

  /** Filtering a sequence cut in two filters each part, in order. */
  lemma FilterSplit(crit: Criterion, docs: seq<Doc>, n: nat)
    requires n <= |docs|
    ensures Filter(crit, docs) == Filter(crit, docs[..n]) + Filter(crit, docs[n..])
  {
    assert docs == docs[..n] + docs[n..];
    FilterConcat(crit, docs[..n], docs[n..]);
  }

  /** Filtering two sequences laid end to end filters each, in order. */
  lemma {:induction false} FilterConcat(crit: Criterion, a: seq<Doc>, b: seq<Doc>)
    ensures Filter(crit, a + b) == Filter(crit, a) + Filter(crit, b)
  {
    if a == [] {
      assert a + b == b;
    } else {
      var head := if Selected(crit, a[0]) then [a[0]] else [];
      assert (a + b)[1..] == a[1..] + b;
      FilterConcat(crit, a[1..], b);
      ConcatAssoc(head, Filter(crit, a[1..]), Filter(crit, b));
    }
  }

  /** Concatenation is associative. */
  lemma ConcatAssoc<T>(a: seq<T>, b: seq<T>, c: seq<T>)
    ensures a + (b + c) == (a + b) + c
  {
  }

  /** The total is the count among the fetched candidates only: it never
      exceeds the number of selected events in the whole collection, the
      kept candidates are the newest of those, and the two agree whenever
      the collection fits in the over-fetch. */
  lemma TotalUndercounts(all: seq<Doc>, q: Query)
    requires q.limit.Some? ==> q.limit.value >= 0
    ensures var r := List(all, q);
            var everything := Filter(CriterionOf(q.categoria), all);
            && r.total <= |everything|
            && Kept(all, q, r.limit) <= everything
            && (|all| <= OverFetch * r.limit ==> r.total == |everything|)
  {
    var limit := q.limit.GetOr(DefaultLimit);
    ListSteps(all, q);
    var fetched := Take(all, OverFetch * limit);
    assert fetched == all[..|fetched|];
    FilterPrefix(CriterionOf(q.categoria), all, |fetched|);
    if |all| <= OverFetch * limit {
      assert fetched == all;
    }
  }

  /** The first `n` pages, one after the other. */
  function Pages(all: seq<Doc>, q: Query, n: nat): seq<Doc>
    requires q.limit.Some? ==> q.limit.value >= 0
  {
    if n == 0 then [] else Pages(all, q, n - 1) + List(all, q.(page := Some(n))).items
  }

  /** Pages 1..n laid end to end are exactly the kept candidates before
      the start of page n+1, that is the first n*limit of them: no kept
      event is skipped or repeated between pages. */
  lemma PagesTile(all: seq<Doc>, q: Query, n: nat)
    requires q.limit.Some? ==> q.limit.value >= 0
    ensures var limit := q.limit.GetOr(DefaultLimit);
            var kept := Kept(all, q, limit);
            Pages(all, q, n) == kept[..Min(PageStart(n + 1, limit), |kept|)]
  {
    var limit := q.limit.GetOr(DefaultLimit);
    PagesAreWindows(all, q, limit, n);
    WindowsTile(Kept(all, q, limit), limit, n);
  }

  /** The first `n` windows of size `limit` of a sequence, one after the other. */
  function Windows<T>(s: seq<T>, limit: nat, n: nat): seq<T> {
    if n == 0 then [] else Windows(s, limit, n - 1) + Slice(s, PageStart(n, limit), PageStart(n, limit) + limit)
  }

  /** The pages are the windows of the kept candidates. */
  lemma PagesAreWindows(all: seq<Doc>, q: Query, limit: nat, n: nat)
    requires q.limit.Some? ==> q.limit.value >= 0
    requires limit == q.limit.GetOr(DefaultLimit)
    ensures Pages(all, q, n) == Windows(Kept(all, q, limit), limit, n)
  {
    var i := 0;
    while i < n
      invariant i <= n
      invariant Pages(all, q, i) == Windows(Kept(all, q, limit), limit, i)
    {
      i := i + 1;
      NthPage(all, q, i);
    }
  }

  /** Windows laid end to end cover a prefix without a gap. */
  lemma {:induction false} WindowsTile<T>(s: seq<T>, limit: nat, n: nat)
    ensures Windows(s, limit, n) == s[..Min(PageStart(n + 1, limit), |s|)]
  {
    if n > 0 {
      WindowsTile(s, limit, n - 1);
      NextPageStart(n, limit);
      SliceExtendsPrefix(s, PageStart(n, limit), PageStart(n, limit) + limit);
    }
  }

  /** Each page starts `limit` after the one before it. */
  lemma NextPageStart(page: int, limit: nat)
    ensures PageStart(page + 1, limit) == PageStart(page, limit) + limit
  {
  }

  /** Page n is the window `(n-1)*limit .. n*limit` of the kept candidates. */
  lemma NthPage(all: seq<Doc>, q: Query, n: nat)
    requires q.limit.Some? ==> q.limit.value >= 0
    requires n >= 1
    ensures var limit := q.limit.GetOr(DefaultLimit);
            List(all, q.(page := Some(n))).items
            == Slice(Kept(all, q, limit), PageStart(n, limit), PageStart(n, limit) + limit)
  {
    var limit := q.limit.GetOr(DefaultLimit);
    var q' := q.(page := Some(n));
    ListSteps(all, q');
    assert Kept(all, q', limit) == Kept(all, q, limit);
  }

  /** A prefix followed by the window that starts where it ends is a longer prefix. */
  lemma SliceExtendsPrefix<T>(s: seq<T>, start: int, end: int)
    requires 0 <= start <= end
    ensures s[..Min(start, |s|)] + Slice(s, start, end) == s[..Min(end, |s|)]
  {
  }

  /** An empty category behaves like no category. */
  lemma EmptyCategoriaIsDefault(all: seq<Doc>, q: Query)
    requires q.limit.Some? ==> q.limit.value >= 0
    ensures List(all, q.(categoria := Some(""))) == List(all, q.(categoria := None))
  {
    var limit := q.limit.GetOr(DefaultLimit);
    var q1, q2 := q.(categoria := Some("")), q.(categoria := None);
    ListSteps(all, q1);
    ListSteps(all, q2);
    assert Kept(all, q1, limit) == Kept(all, q2, limit);
  }

  /** A category outside the fourteen lists nothing and reports a total of 0. */
  lemma UnknownCategoriaListsNothing(all: seq<Doc>, q: Query)
    requires q.limit.Some? ==> q.limit.value >= 0
    requires q.categoria.Some? && q.categoria.value != "" && q.categoria.value !in CategoriaNames
    ensures List(all, q).items == [] && List(all, q).total == 0
  {
    var limit := q.limit.GetOr(DefaultLimit);
    FindIsParse(q.categoria.value);
    assert CriterionOf(q.categoria) == OfCategoria(None);
    NoCategoriaKeepsNothing(Take(all, OverFetch * limit));
    assert Kept(all, q, limit) == [];
  }

  /** No document has a category that is not one of the fourteen. */
  lemma {:induction false} NoCategoriaKeepsNothing(docs: seq<Doc>)
    ensures Filter(OfCategoria(None), docs) == []
  {
    if docs != [] {
      NoCategoriaKeepsNothing(docs[1..]);
    }
  }
}

=== FILE: service.dfy ===
/**
 The write operations and the read by id, as transitions of an abstract
 state: the document store (a map from identifier to stored event) and the
 set of identifiers the media host currently holds. Uploads and destroys
 are not performed; their outcome is a parameter, so every property holds
 for every outcome the host may produce. Each operation returns the new
 state and the response it sends.
 */
module Service {
  import opened Event
  import opened Validator

  datatype State = State(store: map<Id, StoredEvent>, media: set<MediaId>)

  /** The media host's answer to an upload: the public URL and the
      identifier of the new image, or a failure. */
  datatype Upload = Uploaded(url: string, publicId: MediaId) | UploadError

  /** The media host's answer to a destroy. */
  datatype Destroy = Destroyed | DestroyError

  datatype Response =
    | Created(id: Id, event: StoredEvent)
    | Found(event: StoredEvent)
    | Updated
    | Deleted
    | Invalid(error: FieldError)
    | ContactMissing
    | NotFound
    | UploadFailed

  /** The collaborators whose decisions are not modelled: the schema
      library's syntax checks, and reading a string-encoded organizer as
      structured data (`None` when the text does not parse). */
  datatype Env = Env(syntax: Syntax, parseJson: string -> Option<OrganizerField>)

  /** The HTTP status each response is sent with. */
  function StatusCode(r: Response): (code: int)
    ensures code == 400 <==> r.Invalid? || r.ContactMissing?
    ensures code == 404 <==> r.NotFound?
    ensures code == 500 <==> r.UploadFailed?
    ensures 200 <= code < 300 <==> r.Created? || r.Found? || r.Updated? || r.Deleted?
  {
    match r
    case Created(_, _) => 201
    case Found(_) => 200
    case Updated => 200
    case Deleted => 200
    case Invalid(_) => 400
    case ContactMissing => 400
    case NotFound => 404
    case UploadFailed => 500
  }

  /** A string-encoded organizer is replaced by what it parses to; when it
      does not parse, the raw string is left for the validator to refuse. */
  function ParseOrganizer(env: Env, c: Candidate): (r: Candidate)
    ensures r == c.(organizador := r.organizador)
    ensures !c.organizador.OrgText? ==> r == c
    ensures c.organizador.OrgText? && env.parseJson(c.organizador.text).None? ==> r == c
    ensures c.organizador.OrgText? && env.parseJson(c.organizador.text).Some? ==>
              r.organizador == env.parseJson(c.organizador.text).value
  {
    if c.organizador.OrgText? then
      match env.parseJson(c.organizador.text)
      case Some(parsed) => c.(organizador := parsed)
      case None => c
    else c
  }

  /** The identifier of the image an attachment produced, if it was uploaded. */
  function UploadedId(file: Option<Upload>): Option<MediaId> {
    if file.Some? && file.value.Uploaded? then Some(file.value.publicId) else None
  }

  function UploadedMedia(file: Option<Upload>): set<MediaId> {
    if file.Some? && file.value.Uploaded? then {file.value.publicId} else {}
  }

  /** The media set after a destroy of `id` was attempted (nothing is
      attempted when `id` is absent). */
  function AfterDestroy(media: set<MediaId>, id: Option<MediaId>, d: Destroy): (m: set<MediaId>)
    ensures m <= media
    ensures id.None? || d == DestroyError ==> m == media
    ensures id.Some? && d == Destroyed ==> id.value !in m && m + {id.value} == media + {id.value}
  {
    if id.Some? && d == Destroyed then media - {id.value} else media
  }

  /** The payload the validator sees: the body with its organizer parsed
      and, after a successful upload, the image URL in `imagen`. The
      image identifier is kept out of it. */
  function Payload(env: Env, body: Candidate, file: Option<Upload>): (c: Candidate)
    ensures file.Some? && file.value.Uploaded? ==> c.imagen == Text(file.value.url)
    ensures !(file.Some? && file.value.Uploaded?) ==> c.imagen == body.imagen
    ensures c.(organizador := body.organizador, imagen := body.imagen) == body
    ensures c.organizador == ParseOrganizer(env, body).organizador
  {
    var parsed := ParseOrganizer(env, body);
    if file.Some? && file.value.Uploaded? then parsed.(imagen := Text(file.value.url)) else parsed
  }

  /** Creates an event. A failed upload is not fatal: the event is created
      without an image. The schema is checked first, then the contact
      rule; only then is anything written, with the status forced to
      active and the image identifier attached. `newId` is the identifier
      the store assigns, which is not in use. */
  function Create(env: Env, s: State, body: Candidate, file: Option<Upload>, newId: Id, now: Instant)
    : (r: (State, Response))
    requires newId !in s.store
    ensures r.0.media == s.media + UploadedMedia(file)
    ensures r.1.Created? || r.1.Invalid? || r.1.ContactMissing?
    ensures var v := Validate(env.syntax, Payload(env, body, file));
            && (r.1.Invalid? <==> v.Err?)
            && (r.1.ContactMissing? <==> v.Ok? && !HasContact(v.value.organizador))
            && (r.1.Invalid? ==> r.1.error == v.error)
    ensures !r.1.Created? ==> r.0.store == s.store
    ensures r.1.Created? ==>
              && r.1.id == newId
              && r.0.store == s.store[newId := r.1.event]
              && r.1.event.data.estado == Activo
              && HasContact(r.1.event.data.organizador)
              && r.1.event.publicId == UploadedId(file)
              && r.1.event.fechaCreacion == now
              && r.1.event.fechaActualizacion == now
  {
    var media := s.media + UploadedMedia(file);
    match Validate(env.syntax, Payload(env, body, file))
    case Err(e) => (State(s.store, media), Invalid(e))
    case Ok(v) =>
      if !HasContact(v.organizador) then (State(s.store, media), ContactMissing)
      else
        var event := StoredEvent(v.(estado := Activo), UploadedId(file), now, now);
        (State(s.store[newId := event], media), Created(newId, event))
  }

  /** The record an update writes: every validated field replaces the
      stored one, except that an absent `imagen` keeps the stored image;
      the image identifier changes only with a new upload; the creation
      time is kept and the update time is refreshed. */
  function Merge(current: StoredEvent, v: EventData, uploaded: Option<MediaId>, now: Instant): (r: StoredEvent)
    ensures r.data.(imagen := v.imagen) == v
    ensures v.imagen.Some? ==> r.data.imagen == v.imagen
    ensures v.imagen.None? ==> r.data.imagen == current.data.imagen
    ensures uploaded.Some? ==> r.publicId == uploaded
    ensures uploaded.None? ==> r.publicId == current.publicId
    ensures r.fechaCreacion == current.fechaCreacion && r.fechaActualizacion == now
  {
    StoredEvent(
      v.(imagen := if v.imagen.Some? then v.imagen else current.data.imagen),
      if uploaded.Some? then uploaded else current.publicId,
      current.fechaCreacion,
      now)
  }

  /** Updates an event. With a new attachment, the stored image is
      destroyed first (a failed destroy is ignored) and then the new one is
      uploaded; a failed upload ends the update before anything is written.
      There is no contact-rule check here. */
  function Update(env: Env, s: State, id: Id, body: Candidate, file: Option<Upload>, destroy: Destroy, now: Instant)
    : (r: (State, Response))
    ensures id !in s.store ==> r == (s, NotFound)
    ensures r.1.NotFound? || r.1.UploadFailed? || r.1.Invalid? || r.1.Updated?
    ensures !r.1.Updated? ==> r.0.store == s.store
    ensures id in s.store ==>
              var current := s.store[id];
              && r.0.media == AfterDestroy(s.media, if file.Some? then current.publicId else None, destroy)
                              + UploadedMedia(file)
              && (r.1.UploadFailed? <==> file == Some(UploadError))
              && (r.1.Invalid? <==> file != Some(UploadError) && Validate(env.syntax, Payload(env, body, file)).Err?)
    ensures r.1.Invalid? ==> r.1.error == Validate(env.syntax, Payload(env, body, file)).error
    ensures r.1.Updated? ==>
              && id in s.store && id in r.0.store
              && r.0.store == s.store[id := r.0.store[id]]
              && r.0.store[id].publicId == (if UploadedId(file).Some? then UploadedId(file) else s.store[id].publicId)
              && r.0.store[id].fechaCreacion == s.store[id].fechaCreacion
              && r.0.store[id].fechaActualizacion == now
    ensures var v := Validate(env.syntax, Payload(env, body, file));
            id in s.store && file != Some(UploadError) && v.Ok? ==>
              && r.1 == Updated
              && r.0.store == s.store[id := Merge(s.store[id], v.value, UploadedId(file), now)]
  {
    if id !in s.store then (s, NotFound)
    else
      var current := s.store[id];
      var media := if file.Some? then AfterDestroy(s.media, current.publicId, destroy) else s.media;
      if file == Some(UploadError) then (State(s.store, media), UploadFailed)
      else
        var media' := media + UploadedMedia(file);
        match Validate(env.syntax, Payload(env, body, file))
        case Err(e) => (State(s.store, media'), Invalid(e))
        case Ok(v) => (State(s.store[id := Merge(current, v, UploadedId(file), now)], media'), Updated)
  }

  /** Deletes an event. The image is destroyed first when the record has
      one; a failed destroy does not stop the document from being removed. */
  function Delete(s: State, id: Id, destroy: Destroy): (r: (State, Response))
    ensures id !in s.store ==> r == (s, NotFound)
    ensures id in s.store ==>
              && r.1 == Deleted
              && r.0.store == s.store - {id}
              && r.0.media == AfterDestroy(s.media, s.store[id].publicId, destroy)
  {
    if id !in s.store then (s, NotFound)
    else
      var current := s.store[id];
      (State(s.store - {id}, AfterDestroy(s.media, current.publicId, destroy)), Deleted)
  }

  /** Reads one event by identifier. */
  function Get(s: State, id: Id): (r: Response)
    ensures r.NotFound? <==> id !in s.store
    ensures r.Found? ==> id in s.store && r.event == s.store[id]
    ensures id in s.store ==> r == Found(s.store[id])
  {
    if id in s.store then Found(s.store[id]) else NotFound
  }
}

=== FILE: service_facts.dfy ===
/**
 Properties of the write operations that relate several calls or that
 follow from the validator: what create and update actually store, that
 the caller's status is ignored on create, that a failed upload degrades
 to "no image" on create, that the contact rule is enforced on create
 only, that a delete is final, and that every operation keeps the store's
 records within the schema's bounds.
 */
module ServiceFacts {
  import opened Event
  import opened Validator
  import opened ValidatorFacts
  import opened Service

  /** Every stored record satisfies the schema's bounds and was not
      updated before it was created. */
  predicate Consistent(syn: Syntax, s: State) {
    forall id :: id in s.store ==>
      && EventInvariant(syn, s.store[id].data)
      && s.store[id].fechaCreacion.millis <= s.store[id].fechaActualizacion.millis
  }

  /** The clock reads no earlier than any stored creation time. */
  predicate ClockAhead(s: State, now: Instant) {
    forall id :: id in s.store ==> s.store[id].fechaCreacion.millis <= now.millis
  }

  /** The created record is the validated payload with the status forced
      to active: written back it gives the payload with `estado` replaced. */
  lemma CreateStoresPayload(env: Env, s: State, body: Candidate, file: Option<Upload>, newId: Id, now: Instant)
    requires newId !in s.store
    requires Create(env, s, body, file, newId, now).1.Created?
    ensures var payload := Payload(env, body, file);
            var event := Create(env, s, body, file, newId, now).1.event;
            && Render(event.data, payload.fecha) == payload.(estado := Text("activo"))
            && env.syntax.toDate(payload.fecha) == Some(event.data.fecha)
  {
    ValidateOutput(env.syntax, Payload(env, body, file));
  }

  /** The status the caller sends is ignored by create (as long as the
      schema accepts it): two bodies that differ only there give the same
      outcome. */
  lemma CreateIgnoresEstado(env: Env, s: State, body: Candidate, file: Option<Upload>, newId: Id, now: Instant,
                            estado: Field)
    requires newId !in s.store
    requires CheckEstado(body.estado).Ok? && CheckEstado(estado).Ok?
    ensures Create(env, s, body.(estado := estado), file, newId, now) == Create(env, s, body, file, newId, now)
  {
    var p := Payload(env, body, file);
    assert Payload(env, body.(estado := estado), file) == p.(estado := estado);
    ValidateIgnoresEstado(env.syntax, p, estado);
  }

  /** A failed upload on create is not fatal: the outcome is the one the
      same request without an attachment has. */
  lemma CreateDegradesFailedUpload(env: Env, s: State, body: Candidate, newId: Id, now: Instant)
    requires newId !in s.store
    ensures Create(env, s, body, Some(UploadError), newId, now) == Create(env, s, body, None, newId, now)
  {
    assert Payload(env, body, Some(UploadError)) == Payload(env, body, None);
  }

  /** When the organizer names no contact channel, create writes nothing,
      whatever the rest of the payload. */
  lemma CreateRequiresContact(env: Env, s: State, body: Candidate, file: Option<Upload>, newId: Id, now: Instant)
    requires newId !in s.store
    requires !ContactGiven(Payload(env, body, file))
    ensures var r := Create(env, s, body, file, newId, now);
            && (r.1.Invalid? || r.1.ContactMissing?)
            && r.0.store == s.store
  {
    var v := Validate(env.syntax, Payload(env, body, file));
    if v.Ok? {
      ContactIffGiven(env.syntax, Payload(env, body, file));
    }
  }

  /** The contact rule is a create-time rule only: a body whose organizer
      has a name and nothing else is refused by create and accepted by
      update, which then stores an organizer without any contact channel. */
  lemma ContactRuleOnlyOnCreate(env: Env, s: State, id: Id, body: Candidate, newId: Id, now: Instant)
    requires newId !in s.store && id in s.store
    requires Validate(env.syntax, body).Ok?
    requires body.organizador.OrgObject?
    requires var o := body.organizador.fields;
             o.email == o.telefono == o.whatsapp == o.facebook == o.instagram == o.sitioWeb == o.otroContacto == Missing
    ensures Create(env, s, body, None, newId, now).1 == ContactMissing
    ensures var r := Update(env, s, id, body, None, DestroyError, now);
            r.1 == Updated && id in r.0.store && !HasContact(r.0.store[id].data.organizador)
  {
    assert Payload(env, body, None) == body;
    ContactIffGiven(env.syntax, body);
  }

  /** A string-encoded organizer that reads as structured data is handled
      exactly as if that data had been sent: create and update give the
      same outcome for both bodies. */
  lemma EncodedOrganizerActsAsSent(env: Env, s: State, body: Candidate, file: Option<Upload>, o: OrganizerField,
                                   id: Id, destroy: Destroy, newId: Id, now: Instant)
    requires newId !in s.store
    requires body.organizador.OrgText? && env.parseJson(body.organizador.text) == Some(o) && !o.OrgText?
    ensures Create(env, s, body, file, newId, now) == Create(env, s, body.(organizador := o), file, newId, now)
    ensures Update(env, s, id, body, file, destroy, now)
            == Update(env, s, id, body.(organizador := o), file, destroy, now)
  {
    assert Payload(env, body, file) == Payload(env, body.(organizador := o), file);
  }

  /** A string-encoded organizer that does not read as structured data is
      left as a string, which the schema refuses: neither create nor update
      writes anything. */
  lemma UnreadableOrganizerRefused(env: Env, s: State, body: Candidate, file: Option<Upload>, id: Id,
                                   destroy: Destroy, newId: Id, now: Instant)
    requires newId !in s.store
    requires body.organizador.OrgText? && env.parseJson(body.organizador.text).None?
    ensures var r := Create(env, s, body, file, newId, now);
            r.1.Invalid? && r.0.store == s.store
    ensures var r := Update(env, s, id, body, file, destroy, now);
            !r.1.Updated? && r.0.store == s.store
  {
    assert Payload(env, body, file).organizador == body.organizador;
  }

  /** What an update stores is the validated payload, except that a payload
      without `imagen` keeps the stored image. */
  lemma UpdateStoresPayload(env: Env, s: State, id: Id, body: Candidate, file: Option<Upload>, destroy: Destroy,
                            now: Instant)
    requires Update(env, s, id, body, file, destroy, now).1.Updated?
    ensures var payload := Payload(env, body, file);
            var r := Update(env, s, id, body, file, destroy, now);
            && id in s.store && id in r.0.store
            && Render(r.0.store[id].data, payload.fecha)
               == WithDefaults(payload).(imagen := if payload.imagen.Missing?
                                                   then RenderOption(s.store[id].data.imagen)
                                                   else payload.imagen)
  {
    ValidateOutput(env.syntax, Payload(env, body, file));
  }

  /** An update without `estado` makes the event active again, whatever
      status it had: the schema's default is written like any other value. */
  lemma UpdateResetsEstado(env: Env, s: State, id: Id, body: Candidate, file: Option<Upload>, destroy: Destroy,
                           now: Instant)
    requires body.estado.Missing?
    requires Update(env, s, id, body, file, destroy, now).1.Updated?
    ensures var r := Update(env, s, id, body, file, destroy, now);
            id in r.0.store && r.0.store[id].data.estado == Activo
  {
    var p := Payload(env, body, file);
    EstadoDefaultsToActivo(env.syntax, p);
  }

  /** A failed upload during an update writes nothing, although the old
      image may already have been destroyed: the record then still names
      an image the host no longer holds. */
  lemma UpdateFailedUploadKeepsRecord(env: Env, s: State, id: Id, body: Candidate, destroy: Destroy, now: Instant)
    requires id in s.store
    ensures var r := Update(env, s, id, body, Some(UploadError), destroy, now);
            && r.1 == UploadFailed
            && r.0.store == s.store
            && (s.store[id].publicId.Some? && destroy == Destroyed ==> s.store[id].publicId.value !in r.0.media)
  {
  }

  /** An update whose payload is refused after the new image was uploaded
      leaves the record pointing at the destroyed image, while the new image
      stays with the host although the record does not name it. */
  lemma UpdateRefusedAfterUpload(env: Env, s: State, id: Id, body: Candidate, url: string, newMedia: MediaId,
                                 now: Instant)
    requires id in s.store && s.store[id].publicId.Some? && s.store[id].publicId.value != newMedia
    requires Validate(env.syntax, Payload(env, body, Some(Uploaded(url, newMedia)))).Err?
    ensures var r := Update(env, s, id, body, Some(Uploaded(url, newMedia)), Destroyed, now);
            && r.1.Invalid?
            && r.0.store[id].publicId == s.store[id].publicId
            && s.store[id].publicId.value !in r.0.media
            && newMedia in r.0.media
  {
  }

  /** The stored image URL and the image identifier are not kept together:
      a body that names an image URL without an attachment is stored with
      that URL and no identifier. */
  lemma ImagenWithoutMediaId(env: Env, s: State, body: Candidate, newId: Id, now: Instant)
    requires newId !in s.store
    requires body.imagen.Text?
    requires Create(env, s, body, None, newId, now).1.Created?
    ensures var event := Create(env, s, body, None, newId, now).1.event;
            event.data.imagen == Some(body.imagen.s) && event.publicId.None?
  {
    CreateStoresPayload(env, s, body, None, newId, now);
  }

  /** A created event can be read back. */
  lemma CreateThenGet(env: Env, s: State, body: Candidate, file: Option<Upload>, newId: Id, now: Instant)
    requires newId !in s.store
    requires Create(env, s, body, file, newId, now).1.Created?
    ensures var r := Create(env, s, body, file, newId, now);
            Get(r.0, newId) == Found(r.1.event)
  {
  }

  /** A deleted event cannot be read back, whether or not its image was
      destroyed. */
  lemma DeleteThenGet(s: State, id: Id, destroy: Destroy)
    ensures Get(Delete(s, id, destroy).0, id) == NotFound
  {
  }

  lemma CreatePreservesConsistency(env: Env, s: State, body: Candidate, file: Option<Upload>, newId: Id,
                                   now: Instant)
    requires newId !in s.store
    requires Consistent(env.syntax, s)
    ensures Consistent(env.syntax, Create(env, s, body, file, newId, now).0)
  {
    var r := Create(env, s, body, file, newId, now);
    if r.1.Created? {
      ValidateOutput(env.syntax, Payload(env, body, file));
    }
  }

  lemma UpdatePreservesConsistency(env: Env, s: State, id: Id, body: Candidate, file: Option<Upload>,
                                   destroy: Destroy, now: Instant)
    requires Consistent(env.syntax, s)
    requires ClockAhead(s, now)
    ensures Consistent(env.syntax, Update(env, s, id, body, file, destroy, now).0)
  {
    var r := Update(env, s, id, body, file, destroy, now);
    if r.1.Updated? {
      ValidateOutput(env.syntax, Payload(env, body, file));
    }
  }

  lemma DeletePreservesConsistency(env: Env, s: State, id: Id, destroy: Destroy)
    requires Consistent(env.syntax, s)
    ensures Consistent(env.syntax, Delete(s, id, destroy).0)
  {
  }
}

=== FILE: validator.dfy ===
/**
 The event schema and its validator.

 The schema is written, as in the source, as a table of per-field rules
 (`TituloRule`, `DescripcionRule`, ...) that one generic string check applies in
 the schema's key order. The validator behaves like the schema library with
 its default options: it stops at the first failing field (so exactly one
 error is reported), it refuses the empty string for every string field,
 it fills in the default `estado`, and it refuses keys the schema does not
 declare, after all declared keys have passed.

 Beside it stands an independent, field-by-field statement of the same
 rules with the bounds written out (`Violations`); `ValidateMatchesViolations`
 proves that the validator accepts exactly when that list is empty and
 otherwise reports its first entry.
 */
module Validator {
  import opened Event

  /** A raw field of the request payload. `NonText` stands for any present
      value that is not a string: a JSON number, whose value `number` holds
      (as an integer), or a boolean, null, an object or an array, for which
      `number` is `None`. Only the date reader looks at `number`; every
      string rule refuses all of them alike. */
  datatype Field = Missing | Text(s: string) | NonText(number: Option<int>)

  /** The raw organizer object; `unknown` lists, in key order, the keys
      the schema does not declare. */
  datatype OrganizerInput = OrganizerInput(
    nombre: Field,
    email: Field,
    telefono: Field,
    whatsapp: Field,
    facebook: Field,
    instagram: Field,
    sitioWeb: Field,
    otroContacto: Field,
    unknown: seq<string>)

  /** The raw `organizador` value: absent, an object, a string (as sent;
      the controller tries to read it as an object before validation), or
      some other non-object value. */
  datatype OrganizerField =
    | OrgMissing
    | OrgObject(fields: OrganizerInput)
    | OrgText(text: string)
    | OrgOther

  /** The candidate record handed to the validator. */
  datatype Candidate = Candidate(
    titulo: Field,
    descripcion: Field,
    fecha: Field,
    hora: Field,
    ubicacion: Field,
    categoria: Field,
    organizador: OrganizerField,
    imagen: Field,
    estado: Field,
    unknown: seq<string>)

  type Path = seq<string>

  datatype ErrorKind =
    | Required
    | NotAString
    | Empty
    | TooShort
    | TooLong
    | NotAllowed
    | InvalidEmail
    | InvalidUri
    | InvalidDate
    | NotAnObject
    | UnknownKey

  /** One field-level error: the dotted path of the field and the rule it broke. */
  datatype FieldError = FieldError(path: Path, kind: ErrorKind)

  datatype Result<+T> = Ok(value: T) | Err(error: FieldError) {
    predicate IsFailure() {
      Err?
    }

    function PropagateFailure<U>(): Result<U>
      requires Err?
    {
      Err(error)
    }

    function Extract(): T
      requires Ok?
    {
      value
    }
  }

  /** The syntax checks the schema library performs internally and that
      are not modelled: e-mail and URI syntax, and reading a raw value as
      a date. They are parameters, so every property holds whatever they
      decide. */
  datatype Syntax = Syntax(
    isEmail: string -> bool,
    isUri: string -> bool,
    toDate: Field -> Option<Instant>)

  datatype Format = Plain | EmailFormat | UriFormat

  /** A string rule: presence, length bounds and an optional format. */
  datatype StringRule = StringRule(required: bool, min: nat, max: Option<nat>, format: Format)

  const TituloRule := StringRule(true, 3, Some(150), Plain)
  const DescripcionRule := StringRule(true, 10, Some(500), Plain)
  const HoraRule := StringRule(true, 0, None, Plain)
  const UbicacionRule := StringRule(true, 5, Some(200), Plain)
  const NombreRule := StringRule(true, 3, Some(100), Plain)
  const EmailRule := StringRule(false, 0, None, EmailFormat)
  const FreeContactRule := StringRule(false, 0, None, Plain)
  const UriRule := StringRule(false, 0, None, UriFormat)
  const OtroContactoRule := StringRule(false, 0, Some(200), Plain)

  /** Applies a string rule: presence, then type, then emptiness, then the
      length bounds, then the format. */
  function CheckString(syn: Syntax, path: Path, rule: StringRule, f: Field): (r: Result<Option<string>>)
    ensures r.Ok? ==> (r.value.None? <==> f.Missing?)
    ensures r.Ok? && r.value.Some? ==> f == Text(r.value.value) && r.value.value != ""
    ensures r.Ok? && rule.required ==> r.value.Some?
    ensures r.Err? ==> r.error.path == path
  {
    match f
    case Missing => if rule.required then Err(FieldError(path, Required)) else Ok(None)
    case NonText(_) => Err(FieldError(path, NotAString))
    case Text(s) =>
      if s == "" then Err(FieldError(path, Empty))
      else if |s| < rule.min then Err(FieldError(path, TooShort))
      else if rule.max.Some? && |s| > rule.max.value then Err(FieldError(path, TooLong))
      else if rule.format == EmailFormat && !syn.isEmail(s) then Err(FieldError(path, InvalidEmail))
      else if rule.format == UriFormat && !syn.isUri(s) then Err(FieldError(path, InvalidUri))
      else Ok(Some(s))
  }

  /** A required string rule; the value is the accepted string. */
  function CheckRequired(syn: Syntax, path: Path, rule: StringRule, f: Field): (r: Result<string>)
    requires rule.required
    ensures r.Ok? ==> f == Text(r.value)
    ensures r.Err? ==> r.error.path == path
  {
    var v :- CheckString(syn, path, rule, f);
    Ok(v.value)
  }

  /** `fecha` is required and read by the date reader, which sees the raw
      value: the schema library reads a string by its date syntax and a
      number as milliseconds since the epoch, and refuses anything else. */
  function CheckDate(syn: Syntax, f: Field): (r: Result<Instant>)
    ensures r.Ok? <==> !f.Missing? && syn.toDate(f).Some?
    ensures r.Ok? ==> syn.toDate(f) == Some(r.value)
  {
    if f.Missing? then Err(FieldError(["fecha"], Required))
    else match syn.toDate(f)
      case None => Err(FieldError(["fecha"], InvalidDate))
      case Some(t) => Ok(t)
  }

  /** The allowed-values check comes before the type check, so a value of
      any other type is reported as not allowed. */
  function CheckCategoria(f: Field): (r: Result<Categoria>)
    ensures r.Ok? <==> f.Text? && f.s in CategoriaNames
    ensures r.Ok? ==> f == Text(CategoriaName(r.value))
  {
    match f
    case Missing => Err(FieldError(["categoria"], Required))
    case NonText(_) => Err(FieldError(["categoria"], NotAllowed))
    case Text(s) =>
      match ParseCategoria(s)
      case None => Err(FieldError(["categoria"], NotAllowed))
      case Some(c) => Ok(c)
  }

  /** `estado` is optional with default `activo`. */
  function CheckEstado(f: Field): (r: Result<Estado>)
    ensures r.Ok? <==> f.Missing? || (f.Text? && f.s in EstadoNames)
    ensures r.Ok? && f.Missing? ==> r.value == Activo
    ensures r.Ok? && !f.Missing? ==> f == Text(EstadoName(r.value))
  {
    match f
    case Missing => Ok(Activo)
    case NonText(_) => Err(FieldError(["estado"], NotAllowed))
    case Text(s) =>
      match ParseEstado(s)
      case None => Err(FieldError(["estado"], NotAllowed))
      case Some(e) => Ok(e)
  }

  /** Undeclared keys are refused; the first one is reported. */
  function CheckNoUnknown(prefix: Path, keys: seq<string>): (r: Result<()>)
    ensures r.Ok? <==> keys == []
    ensures r.Err? ==> r.error.path == prefix + [keys[0]]
  {
    if keys == [] then Ok(()) else Err(FieldError(prefix + [keys[0]], UnknownKey))
  }

  /** Whether an optional raw field carries exactly the accepted value:
      absent for no value, the same string otherwise. */
  predicate Carries(f: Field, x: Option<string>) {
    if x.Some? then f == Text(x.value) else f.Missing?
  }

  /** The organizer object's keys, in the schema's order, then the
      undeclared ones. An accepted organizer carries the input's own
      values; every error lies under `organizador`. */
  function CheckOrganizerFields(syn: Syntax, o: OrganizerInput): (r: Result<Organizer>)
    ensures r.Ok? ==>
              && o.nombre == Text(r.value.nombre)
              && Carries(o.email, r.value.email)
              && Carries(o.telefono, r.value.telefono)
              && Carries(o.whatsapp, r.value.whatsapp)
              && Carries(o.facebook, r.value.facebook)
              && Carries(o.instagram, r.value.instagram)
              && Carries(o.sitioWeb, r.value.sitioWeb)
              && Carries(o.otroContacto, r.value.otroContacto)
              && o.unknown == []
    ensures r.Err? ==> |r.error.path| == 2 && r.error.path[0] == "organizador"
  {
    var nombre :- CheckRequired(syn, ["organizador", "nombre"], NombreRule, o.nombre);
    var email :- CheckString(syn, ["organizador", "email"], EmailRule, o.email);
    var telefono :- CheckString(syn, ["organizador", "telefono"], FreeContactRule, o.telefono);
    var whatsapp :- CheckString(syn, ["organizador", "whatsapp"], FreeContactRule, o.whatsapp);
    var facebook :- CheckString(syn, ["organizador", "facebook"], UriRule, o.facebook);
    var instagram :- CheckString(syn, ["organizador", "instagram"], FreeContactRule, o.instagram);
    var sitioWeb :- CheckString(syn, ["organizador", "sitioWeb"], UriRule, o.sitioWeb);
    var otroContacto :- CheckString(syn, ["organizador", "otroContacto"], OtroContactoRule, o.otroContacto);
    var _ :- CheckNoUnknown(["organizador"], o.unknown);
    Ok(Organizer(nombre, email, telefono, whatsapp, facebook, instagram, sitioWeb, otroContacto))
  }

  /** `organizador` is a required object; anything else is refused at the
      key itself. */
  function CheckOrganizer(syn: Syntax, f: OrganizerField): (r: Result<Organizer>)
    ensures !f.OrgObject? ==> r.Err? && r.error.path == ["organizador"]
    ensures r.Ok? ==> f.OrgObject? && f.fields.nombre == Text(r.value.nombre) && f.fields.unknown == []
    ensures r.Err? ==> 1 <= |r.error.path| <= 2 && r.error.path[0] == "organizador"
  {
    match f
    case OrgMissing => Err(FieldError(["organizador"], Required))
    case OrgText(_) => Err(FieldError(["organizador"], NotAnObject))
    case OrgOther => Err(FieldError(["organizador"], NotAnObject))
    case OrgObject(o) => CheckOrganizerFields(syn, o)
  }

  /** The schema's validation of a candidate record. An accepted record
      is made of the candidate's own values, with the default status when
      none was given; an error always names a field. */
  function Validate(syn: Syntax, c: Candidate): (r: Result<EventData>)
    ensures r.Ok? ==>
              && c.titulo == Text(r.value.titulo)
              && c.descripcion == Text(r.value.descripcion)
              && syn.toDate(c.fecha) == Some(r.value.fecha)
              && c.hora == Text(r.value.hora)
              && c.ubicacion == Text(r.value.ubicacion)
              && c.categoria == Text(CategoriaName(r.value.categoria))
              && c.organizador.OrgObject?
              && Carries(c.imagen, r.value.imagen)
              && (if c.estado.Missing? then r.value.estado == Activo else c.estado == Text(EstadoName(r.value.estado)))
              && c.unknown == []
    ensures r.Err? ==> |r.error.path| >= 1
  {
    var titulo :- CheckRequired(syn, ["titulo"], TituloRule, c.titulo);
    var descripcion :- CheckRequired(syn, ["descripcion"], DescripcionRule, c.descripcion);
    var fecha :- CheckDate(syn, c.fecha);
    var hora :- CheckRequired(syn, ["hora"], HoraRule, c.hora);
    var ubicacion :- CheckRequired(syn, ["ubicacion"], UbicacionRule, c.ubicacion);
    var categoria :- CheckCategoria(c.categoria);
    var organizador :- CheckOrganizer(syn, c.organizador);
    var imagen :- CheckString(syn, ["imagen"], UriRule, c.imagen);
    var estado :- CheckEstado(c.estado);
    var _ :- CheckNoUnknown([], c.unknown);
    Ok(EventData(titulo, descripcion, fecha, hora, ubicacion, categoria, organizador, imagen, estado))
  }

  // ---------------------------------------------------------------------
  // The same rules, field by field, with every bound written out.
  // ---------------------------------------------------------------------

  /** An optional string field: absent, or a non-empty string. */
  predicate AbsentOrFilled(f: Field) {
    f.Missing? || (f.Text? && f.s != "")
  }

  predicate TituloOk(c: Candidate) { c.titulo.Text? && 3 <= |c.titulo.s| <= 150 }
  predicate DescripcionOk(c: Candidate) { c.descripcion.Text? && 10 <= |c.descripcion.s| <= 500 }
  predicate FechaOk(syn: Syntax, c: Candidate) { !c.fecha.Missing? && syn.toDate(c.fecha).Some? }
  predicate HoraOk(c: Candidate) { c.hora.Text? && c.hora.s != "" }
  predicate UbicacionOk(c: Candidate) { c.ubicacion.Text? && 5 <= |c.ubicacion.s| <= 200 }
  predicate CategoriaOk(c: Candidate) { c.categoria.Text? && c.categoria.s in CategoriaNames }
  predicate ImagenOk(syn: Syntax, c: Candidate) {
    AbsentOrFilled(c.imagen) && (c.imagen.Text? ==> syn.isUri(c.imagen.s))
  }
  predicate EstadoOk(c: Candidate) { c.estado.Missing? || (c.estado.Text? && c.estado.s in EstadoNames) }

  predicate NombreOk(o: OrganizerInput) { o.nombre.Text? && 3 <= |o.nombre.s| <= 100 }
  predicate EmailOk(syn: Syntax, o: OrganizerInput) {
    AbsentOrFilled(o.email) && (o.email.Text? ==> syn.isEmail(o.email.s))
  }
  predicate FacebookOk(syn: Syntax, o: OrganizerInput) {
    AbsentOrFilled(o.facebook) && (o.facebook.Text? ==> syn.isUri(o.facebook.s))
  }
  predicate SitioWebOk(syn: Syntax, o: OrganizerInput) {
    AbsentOrFilled(o.sitioWeb) && (o.sitioWeb.Text? ==> syn.isUri(o.sitioWeb.s))
  }
  predicate OtroContactoOk(o: OrganizerInput) {
    AbsentOrFilled(o.otroContacto) && (o.otroContacto.Text? ==> |o.otroContacto.s| <= 200)
  }

  /** One path when a rule fails, none when it holds. */
  function Flag(ok: bool, p: Path): seq<Path> {
    if ok then [] else [p]
  }

  function UnknownPaths(prefix: Path, keys: seq<string>): seq<Path> {
    seq(|keys|, i requires 0 <= i < |keys| => prefix + [keys[i]])
  }

  /** Every rule the organizer object breaks, in key order. */
  function OrganizerViolations(syn: Syntax, o: OrganizerInput): seq<Path> {
    Flag(NombreOk(o), ["organizador", "nombre"])
    + (Flag(EmailOk(syn, o), ["organizador", "email"])
    + (Flag(AbsentOrFilled(o.telefono), ["organizador", "telefono"])
    + (Flag(AbsentOrFilled(o.whatsapp), ["organizador", "whatsapp"])
    + (Flag(FacebookOk(syn, o), ["organizador", "facebook"])
    + (Flag(AbsentOrFilled(o.instagram), ["organizador", "instagram"])
    + (Flag(SitioWebOk(syn, o), ["organizador", "sitioWeb"])
    + (Flag(OtroContactoOk(o), ["organizador", "otroContacto"])
    + UnknownPaths(["organizador"], o.unknown))))))))
  }

  function OrganizadorViolations(syn: Syntax, f: OrganizerField): seq<Path> {
    if f.OrgObject? then OrganizerViolations(syn, f.fields) else [["organizador"]]
  }

  /** Every rule the candidate breaks, in the schema's key order, with the
      undeclared keys last. */
  function Violations(syn: Syntax, c: Candidate): seq<Path> {
    Flag(TituloOk(c), ["titulo"])
    + (Flag(DescripcionOk(c), ["descripcion"])
    + (Flag(FechaOk(syn, c), ["fecha"])
    + (Flag(HoraOk(c), ["hora"])
    + (Flag(UbicacionOk(c), ["ubicacion"])
    + (Flag(CategoriaOk(c), ["categoria"])
    + (OrganizadorViolations(syn, c.organizador)
    + (Flag(ImagenOk(syn, c), ["imagen"])
    + (Flag(EstadoOk(c), ["estado"])
    + UnknownPaths([], c.unknown)))))))))
  }

  predicate Accepts(syn: Syntax, c: Candidate) {
    Violations(syn, c) == []
  }
}

=== FILE: validator_facts.dfy ===
/**
 What the validator promises: it accepts exactly the candidates that break
 no rule, reports the first broken rule otherwise, and returns the
 candidate's own values (with the default status filled in). `Render`
 writes a validated record back as a candidate, and the two round trips
 through it pin the validator's output down completely.
 */
module ValidatorFacts {
  import opened Event
  import opened Validator

  /** Bounds and formats every validated record satisfies. */
  predicate OrganizerInvariant(syn: Syntax, o: Organizer) {
    && 3 <= |o.nombre| <= 100
    && (o.email.Some? ==> o.email.value != "" && syn.isEmail(o.email.value))
    && (o.telefono.Some? ==> o.telefono.value != "")
    && (o.whatsapp.Some? ==> o.whatsapp.value != "")
    && (o.facebook.Some? ==> o.facebook.value != "" && syn.isUri(o.facebook.value))
    && (o.instagram.Some? ==> o.instagram.value != "")
    && (o.sitioWeb.Some? ==> o.sitioWeb.value != "" && syn.isUri(o.sitioWeb.value))
    && (o.otroContacto.Some? ==> o.otroContacto.value != "" && |o.otroContacto.value| <= 200)
  }

  predicate EventInvariant(syn: Syntax, e: EventData) {
    && 3 <= |e.titulo| <= 150
    && 10 <= |e.descripcion| <= 500
    && e.hora != ""
    && 5 <= |e.ubicacion| <= 200
    && OrganizerInvariant(syn, e.organizador)
    && (e.imagen.Some? ==> e.imagen.value != "" && syn.isUri(e.imagen.value))
  }

  function RenderOption(x: Option<string>): Field {
    match x
    case None => Missing
    case Some(s) => Text(s)
  }

  function RenderOrganizer(o: Organizer): OrganizerInput {
    OrganizerInput(Text(o.nombre), RenderOption(o.email), RenderOption(o.telefono),
                   RenderOption(o.whatsapp), RenderOption(o.facebook), RenderOption(o.instagram),
                   RenderOption(o.sitioWeb), RenderOption(o.otroContacto), [])
  }

  /** A validated record written back as a request payload; the date is
      given as the raw value it was read from. */
  function Render(e: EventData, fecha: Field): Candidate {
    Candidate(Text(e.titulo), Text(e.descripcion), fecha, Text(e.hora), Text(e.ubicacion),
              Text(CategoriaName(e.categoria)), OrgObject(RenderOrganizer(e.organizador)),
              RenderOption(e.imagen), Text(EstadoName(e.estado)), [])
  }

  /** The candidate with the schema's default applied. */
  function WithDefaults(c: Candidate): Candidate {
    if c.estado.Missing? then c.(estado := Text("activo")) else c
  }

  /** Whether the payload named any contact channel at all. */
  predicate ContactGiven(c: Candidate) {
    && c.organizador.OrgObject?
    && var o := c.organizador.fields;
       || !o.email.Missing?
       || !o.telefono.Missing?
       || !o.whatsapp.Missing?
       || !o.facebook.Missing?
       || !o.instagram.Missing?
       || !o.sitioWeb.Missing?
       || !o.otroContacto.Missing?
  }

  lemma {:induction false} UnknownPathsEmpty(prefix: Path, keys: seq<string>)
    ensures UnknownPaths(prefix, keys) == [] <==> keys == []
    ensures keys != [] ==> UnknownPaths(prefix, keys)[0] == prefix + [keys[0]]
  {
    if keys != [] {
      assert UnknownPaths(prefix, keys)[0] == prefix + [keys[0]];
    }
  }

  /** A required plain string rule means: a string whose length lies within the bounds. */
  lemma RequiredPlainMeaning(syn: Syntax, path: Path, rule: StringRule, f: Field)
    requires rule.required && rule.format == Plain && rule.max.Some?
    ensures CheckRequired(syn, path, rule, f).Ok? <==>
              f.Text? && f.s != "" && rule.min <= |f.s| <= rule.max.value
  {
  }

  /** The organizer check accepts exactly when the organizer breaks no
      rule and otherwise reports the first rule it breaks. */
  lemma OrganizerMatchesViolations(syn: Syntax, o: OrganizerInput)
    ensures CheckOrganizerFields(syn, o).Ok? <==> OrganizerViolations(syn, o) == []
    ensures CheckOrganizerFields(syn, o).Err? ==>
              CheckOrganizerFields(syn, o).error.path == OrganizerViolations(syn, o)[0]
  {
    var r := CheckOrganizerFields(syn, o);
    var nombre := CheckRequired(syn, ["organizador", "nombre"], NombreRule, o.nombre);
    RequiredPlainMeaning(syn, ["organizador", "nombre"], NombreRule, o.nombre);
    if nombre.Err? {
      assert r == Err(nombre.error);
      return;
    }
    var email := CheckString(syn, ["organizador", "email"], EmailRule, o.email);
    if email.Err? {
      assert r == Err(email.error);
      return;
    }
    var telefono := CheckString(syn, ["organizador", "telefono"], FreeContactRule, o.telefono);
    if telefono.Err? {
      assert r == Err(telefono.error);
      return;
    }
    var whatsapp := CheckString(syn, ["organizador", "whatsapp"], FreeContactRule, o.whatsapp);
    if whatsapp.Err? {
      assert r == Err(whatsapp.error);
      return;
    }
    var facebook := CheckString(syn, ["organizador", "facebook"], UriRule, o.facebook);
    if facebook.Err? {
      assert r == Err(facebook.error);
      return;
    }
    var instagram := CheckString(syn, ["organizador", "instagram"], FreeContactRule, o.instagram);
    if instagram.Err? {
      assert r == Err(instagram.error);
      return;
    }
    var sitioWeb := CheckString(syn, ["organizador", "sitioWeb"], UriRule, o.sitioWeb);
    if sitioWeb.Err? {
      assert r == Err(sitioWeb.error);
      return;
    }
    var otroContacto := CheckString(syn, ["organizador", "otroContacto"], OtroContactoRule, o.otroContacto);
    if otroContacto.Err? {
      assert r == Err(otroContacto.error);
      return;
    }
    UnknownPathsEmpty(["organizador"], o.unknown);
  }

  /** The validator accepts exactly the candidates that break no rule, and
      on refusal reports the first rule broken in schema key order. The
      proof walks the rule list one field at a time: `rest` is what is
      left of `Violations` once the fields already passed are dropped. */
  lemma ValidateMatchesViolations(syn: Syntax, c: Candidate)
    ensures Validate(syn, c).Ok? <==> Accepts(syn, c)
    ensures Validate(syn, c).Err? ==> Validate(syn, c).error.path == Violations(syn, c)[0]
  {
    var r := Validate(syn, c);
    var v9 := Flag(EstadoOk(c), ["estado"]) + UnknownPaths([], c.unknown);
    var v8 := Flag(ImagenOk(syn, c), ["imagen"]) + v9;
    var v7 := OrganizadorViolations(syn, c.organizador) + v8;
    var v6 := Flag(CategoriaOk(c), ["categoria"]) + v7;
    var v5 := Flag(UbicacionOk(c), ["ubicacion"]) + v6;
    var v4 := Flag(HoraOk(c), ["hora"]) + v5;
    var v3 := Flag(FechaOk(syn, c), ["fecha"]) + v4;
    var v2 := Flag(DescripcionOk(c), ["descripcion"]) + v3;
    assert Violations(syn, c) == Flag(TituloOk(c), ["titulo"]) + v2;

    var titulo := CheckRequired(syn, ["titulo"], TituloRule, c.titulo);
    RequiredPlainMeaning(syn, ["titulo"], TituloRule, c.titulo);
    FlagStep(TituloOk(c), ["titulo"], v2);
    if titulo.Err? {
      assert r == Err(titulo.error);
      assert Violations(syn, c)[0] == ["titulo"];
      return;
    }
    assert Violations(syn, c) == v2;
    var descripcion := CheckRequired(syn, ["descripcion"], DescripcionRule, c.descripcion);
    RequiredPlainMeaning(syn, ["descripcion"], DescripcionRule, c.descripcion);
    FlagStep(DescripcionOk(c), ["descripcion"], v3);
    if descripcion.Err? {
      assert r == Err(descripcion.error);
      assert Violations(syn, c)[0] == ["descripcion"];
      return;
    }
    assert Violations(syn, c) == v3;
    var fecha := CheckDate(syn, c.fecha);
    FlagStep(FechaOk(syn, c), ["fecha"], v4);
    if fecha.Err? {
      assert r == Err(fecha.error);
      assert Violations(syn, c)[0] == ["fecha"];
      return;
    }
    assert Violations(syn, c) == v4;
    var hora := CheckRequired(syn, ["hora"], HoraRule, c.hora);
    FlagStep(HoraOk(c), ["hora"], v5);
    if hora.Err? {
      assert r == Err(hora.error);
      assert Violations(syn, c)[0] == ["hora"];
      return;
    }
    assert Violations(syn, c) == v5;
    var ubicacion := CheckRequired(syn, ["ubicacion"], UbicacionRule, c.ubicacion);
    RequiredPlainMeaning(syn, ["ubicacion"], UbicacionRule, c.ubicacion);
    FlagStep(UbicacionOk(c), ["ubicacion"], v6);
    if ubicacion.Err? {
      assert r == Err(ubicacion.error);
      assert Violations(syn, c)[0] == ["ubicacion"];
      return;
    }
    assert Violations(syn, c) == v6;
    var categoria := CheckCategoria(c.categoria);
    FlagStep(CategoriaOk(c), ["categoria"], v7);
    if categoria.Err? {
      assert r == Err(categoria.error);
      assert Violations(syn, c)[0] == ["categoria"];
      return;
    }
    assert Violations(syn, c) == v7;
    LaterMatchesViolations(syn, c);
  }

  /** `ValidateMatchesViolations` once the six leading fields have passed:
      what is left of the rule list starts at the organizer. */
  lemma LaterMatchesViolations(syn: Syntax, c: Candidate)
    requires TituloOk(c) && DescripcionOk(c) && FechaOk(syn, c)
    requires HoraOk(c) && UbicacionOk(c) && CategoriaOk(c)
    ensures Validate(syn, c).Ok? <==> Accepts(syn, c)
    ensures Validate(syn, c).Err? ==> Validate(syn, c).error.path == Violations(syn, c)[0]
  {
    var r := Validate(syn, c);
    var v9 := Flag(EstadoOk(c), ["estado"]) + UnknownPaths([], c.unknown);
    var v8 := Flag(ImagenOk(syn, c), ["imagen"]) + v9;
    var v7 := OrganizadorViolations(syn, c.organizador) + v8;
    assert Violations(syn, c) == v7;
    RequiredPlainMeaning(syn, ["titulo"], TituloRule, c.titulo);
    RequiredPlainMeaning(syn, ["descripcion"], DescripcionRule, c.descripcion);
    RequiredPlainMeaning(syn, ["ubicacion"], UbicacionRule, c.ubicacion);
    assert CheckRequired(syn, ["hora"], HoraRule, c.hora).Ok?;
    var organizador := CheckOrganizer(syn, c.organizador);
    if c.organizador.OrgObject? {
      OrganizerMatchesViolations(syn, c.organizador.fields);
    }
    if organizador.Err? {
      assert r == Err(organizador.error);
      assert OrganizadorViolations(syn, c.organizador) != [];
      assert Violations(syn, c)[0] == organizador.error.path;
      return;
    }
    assert Violations(syn, c) == v8;
    var imagen := CheckString(syn, ["imagen"], UriRule, c.imagen);
    FlagStep(ImagenOk(syn, c), ["imagen"], v9);
    if imagen.Err? {
      assert r == Err(imagen.error);
      assert Violations(syn, c)[0] == ["imagen"];
      return;
    }
    assert Violations(syn, c) == v9;
    var estado := CheckEstado(c.estado);
    FlagStep(EstadoOk(c), ["estado"], UnknownPaths([], c.unknown));
    if estado.Err? {
      assert r == Err(estado.error);
      assert Violations(syn, c)[0] == ["estado"];
      return;
    }
    assert Violations(syn, c) == UnknownPaths([], c.unknown);
    UnknownPathsEmpty([], c.unknown);
  }

  /** One step along the rule list: a passed rule drops out, and a broken
      one comes first. */
  lemma FlagStep(ok: bool, p: Path, rest: seq<Path>)
    ensures ok ==> Flag(ok, p) + rest == rest
    ensures !ok ==> Flag(ok, p) + rest != [] && (Flag(ok, p) + rest)[0] == p
  {
  }

  /** The organizer check returns the organizer's own values. */
  lemma OrganizerOutput(syn: Syntax, o: OrganizerInput)
    requires CheckOrganizerFields(syn, o).Ok?
    ensures RenderOrganizer(CheckOrganizerFields(syn, o).value) == o
    ensures OrganizerInvariant(syn, CheckOrganizerFields(syn, o).value)
  {
    var r := CheckOrganizerFields(syn, o);
    var nombre := CheckRequired(syn, ["organizador", "nombre"], NombreRule, o.nombre);
    assert nombre.Ok?;
    var email := CheckString(syn, ["organizador", "email"], EmailRule, o.email);
    assert email.Ok?;
    var telefono := CheckString(syn, ["organizador", "telefono"], FreeContactRule, o.telefono);
    assert telefono.Ok?;
    var whatsapp := CheckString(syn, ["organizador", "whatsapp"], FreeContactRule, o.whatsapp);
    assert whatsapp.Ok?;
    var facebook := CheckString(syn, ["organizador", "facebook"], UriRule, o.facebook);
    assert facebook.Ok?;
    var instagram := CheckString(syn, ["organizador", "instagram"], FreeContactRule, o.instagram);
    assert instagram.Ok?;
    var sitioWeb := CheckString(syn, ["organizador", "sitioWeb"], UriRule, o.sitioWeb);
    assert sitioWeb.Ok?;
    var otroContacto := CheckString(syn, ["organizador", "otroContacto"], OtroContactoRule, o.otroContacto);
    assert otroContacto.Ok?;
    assert o.unknown == [];
    assert r.value == Organizer(nombre.value, email.value, telefono.value, whatsapp.value,
                                facebook.value, instagram.value, sitioWeb.value, otroContacto.value);
  }

  /** What the validator returns is the candidate itself: writing the
      result back gives the candidate with the default status filled in. */
  lemma ValidateOutput(syn: Syntax, c: Candidate)
    requires Validate(syn, c).Ok?
    ensures Render(Validate(syn, c).value, c.fecha) == WithDefaults(c)
    ensures syn.toDate(c.fecha) == Some(Validate(syn, c).value.fecha)
    ensures EventInvariant(syn, Validate(syn, c).value)
  {
    var r := Validate(syn, c);
    var titulo := CheckRequired(syn, ["titulo"], TituloRule, c.titulo);
    assert titulo.Ok?;
    var descripcion := CheckRequired(syn, ["descripcion"], DescripcionRule, c.descripcion);
    assert descripcion.Ok?;
    var fecha := CheckDate(syn, c.fecha);
    assert fecha.Ok?;
    var hora := CheckRequired(syn, ["hora"], HoraRule, c.hora);
    assert hora.Ok?;
    var ubicacion := CheckRequired(syn, ["ubicacion"], UbicacionRule, c.ubicacion);
    assert ubicacion.Ok?;
    var categoria := CheckCategoria(c.categoria);
    assert categoria.Ok?;
    var organizador := CheckOrganizer(syn, c.organizador);
    assert organizador.Ok?;
    assert c.organizador.OrgObject?;
    OrganizerOutput(syn, c.organizador.fields);
    var imagen := CheckString(syn, ["imagen"], UriRule, c.imagen);
    assert imagen.Ok?;
    var estado := CheckEstado(c.estado);
    assert estado.Ok?;
    assert c.unknown == [];
    assert r.value == EventData(titulo.value, descripcion.value, fecha.value, hora.value, ubicacion.value,
                                categoria.value, organizador.value, imagen.value, estado.value);
  }

  /** Every record that satisfies the invariant is accepted back unchanged
      when written out as a payload. */
  lemma ValidateRender(syn: Syntax, e: EventData, fecha: Field)
    requires EventInvariant(syn, e)
    requires !fecha.Missing? && syn.toDate(fecha) == Some(e.fecha)
    ensures Validate(syn, Render(e, fecha)) == Ok(e)
  {
    var c := Render(e, fecha);
    var o := e.organizador;
    var ro := RenderOrganizer(o);
    assert CheckRequired(syn, ["organizador", "nombre"], NombreRule, ro.nombre) == Ok(o.nombre);
    assert CheckString(syn, ["organizador", "email"], EmailRule, ro.email) == Ok(o.email);
    assert CheckString(syn, ["organizador", "telefono"], FreeContactRule, ro.telefono) == Ok(o.telefono);
    assert CheckString(syn, ["organizador", "whatsapp"], FreeContactRule, ro.whatsapp) == Ok(o.whatsapp);
    assert CheckString(syn, ["organizador", "facebook"], UriRule, ro.facebook) == Ok(o.facebook);
    assert CheckString(syn, ["organizador", "instagram"], FreeContactRule, ro.instagram) == Ok(o.instagram);
    assert CheckString(syn, ["organizador", "sitioWeb"], UriRule, ro.sitioWeb) == Ok(o.sitioWeb);
    assert CheckString(syn, ["organizador", "otroContacto"], OtroContactoRule, ro.otroContacto) == Ok(o.otroContacto);
    assert CheckOrganizer(syn, c.organizador) == Ok(o);
    CategoriaRoundTrip(e.categoria);
    EstadoRoundTrip(e.estado);
    assert CheckRequired(syn, ["titulo"], TituloRule, c.titulo) == Ok(e.titulo);
    assert CheckRequired(syn, ["descripcion"], DescripcionRule, c.descripcion) == Ok(e.descripcion);
    assert CheckDate(syn, c.fecha) == Ok(e.fecha);
    assert CheckRequired(syn, ["hora"], HoraRule, c.hora) == Ok(e.hora);
    assert CheckRequired(syn, ["ubicacion"], UbicacionRule, c.ubicacion) == Ok(e.ubicacion);
    assert CheckCategoria(c.categoria) == Ok(e.categoria);
    assert CheckString(syn, ["imagen"], UriRule, c.imagen) == Ok(e.imagen);
    assert CheckEstado(c.estado) == Ok(e.estado);
  }

  /** An accepted record has every bound of the schema: titulo 3..150,
      descripcion 10..500, ubicacion 5..200, a listed category, an organizer
      object whose nombre is 3..100 and whose otroContacto is at most 200,
      and a listed status when one is given. Anything outside is refused. */
  lemma AcceptedWithinBounds(syn: Syntax, c: Candidate)
    requires Validate(syn, c).Ok?
    ensures c.titulo.Text? && 3 <= |c.titulo.s| <= 150
    ensures c.descripcion.Text? && 10 <= |c.descripcion.s| <= 500
    ensures c.ubicacion.Text? && 5 <= |c.ubicacion.s| <= 200
    ensures c.hora.Text? && c.hora.s != ""
    ensures c.categoria.Text? && c.categoria.s in CategoriaNames
    ensures c.organizador.OrgObject?
    ensures c.organizador.fields.nombre.Text? && 3 <= |c.organizador.fields.nombre.s| <= 100
    ensures c.organizador.fields.otroContacto.Text? ==> |c.organizador.fields.otroContacto.s| <= 200
    ensures c.estado.Missing? || (c.estado.Text? && c.estado.s in EstadoNames)
    ensures c.unknown == []
  {
    ValidateMatchesViolations(syn, c);
    UnknownPathsEmpty([], c.unknown);
    if c.organizador.OrgObject? {
      UnknownPathsEmpty(["organizador"], c.organizador.fields.unknown);
    }
  }

  /** Without an estado the accepted record is active; with one, it is the
      status that was named. */
  lemma EstadoDefaultsToActivo(syn: Syntax, c: Candidate)
    requires Validate(syn, c).Ok?
    ensures c.estado.Missing? ==> Validate(syn, c).value.estado == Activo
    ensures c.estado.Text? ==> EstadoName(Validate(syn, c).value.estado) == c.estado.s
  {
    ValidateOutput(syn, c);
  }

  /** The contact rule is not part of the schema: an accepted record stays
      accepted when its organizer is replaced by one that carries only a
      valid name, and the result then has no contact channel. */
  lemma SchemaAcceptsNameOnlyOrganizer(syn: Syntax, c: Candidate, nombre: string)
    requires Validate(syn, c).Ok?
    requires 3 <= |nombre| <= 100
    ensures var c' := c.(organizador := OrgObject(OrganizerInput(Text(nombre), Missing, Missing, Missing,
                                                                   Missing, Missing, Missing, Missing, [])));
            Validate(syn, c').Ok? && !HasContact(Validate(syn, c').value.organizador)
  {
    var c' := c.(organizador := OrgObject(OrganizerInput(Text(nombre), Missing, Missing, Missing,
                                                         Missing, Missing, Missing, Missing, [])));
    ValidateMatchesViolations(syn, c);
    UnknownPathsEmpty(["organizador"], []);
    assert OrganizadorViolations(syn, c'.organizador) == [];
    assert Violations(syn, c') == [];
    ValidateMatchesViolations(syn, c');
    ValidateOutput(syn, c');
  }

  /** hora is only required to be a non-empty string: any such value, of
      any length, keeps an accepted record accepted. */
  lemma HoraUnbounded(syn: Syntax, c: Candidate, hora: string)
    requires Validate(syn, c).Ok?
    requires hora != ""
    ensures Validate(syn, c.(hora := Text(hora))).Ok?
  {
    ValidateMatchesViolations(syn, c);
    ValidateMatchesViolations(syn, c.(hora := Text(hora)));
  }

  /** Since the schema refuses empty strings, an accepted organizer passes
      the contact rule exactly when the payload named some contact field. */
  lemma ContactIffGiven(syn: Syntax, c: Candidate)
    requires Validate(syn, c).Ok?
    ensures HasContact(Validate(syn, c).value.organizador) <==> ContactGiven(c)
  {
    ValidateOutput(syn, c);
  }

  /** Changing one accepted status for another changes nothing else: the
      same candidates are refused with the same error, and accepted ones
      yield the same record up to its status. */
  lemma ValidateIgnoresEstado(syn: Syntax, c: Candidate, estado: Field)
    requires CheckEstado(c.estado).Ok? && CheckEstado(estado).Ok?
    ensures Validate(syn, c).Err? ==> Validate(syn, c.(estado := estado)) == Validate(syn, c)
    ensures Validate(syn, c).Ok? ==>
              && Validate(syn, c.(estado := estado)).Ok?
              && Validate(syn, c.(estado := estado)).value.(estado := Activo)
                 == Validate(syn, c).value.(estado := Activo)
  {
  }
}
